=== FILE: README.md ===
# EPUB generation core, modelled in Dafny

The modelled program reads an XML description of a book: a front matter of
pages, parts holding chapters, and a back matter of pages. From it, it writes
an EPUB 2 directory. This project models the part of `epub.py` that decides
what those files say:

- **Pages** (`pages.dfy`): the `URI` record of one XHTML page. It covers the
  page's `idref` (`kind-id`) and file name (`kind-id.xhtml`), the NCX
  `<navPoint>` opening it emits, its manifest items (the page, plus its
  image typed through the two-entry MIME table), its spine `<itemref>`, and
  `get_label`. `get_label` escapes `&`, `<` and `>`, then turns every
  non-ASCII character into a decimal character reference (`escape.dfy`).
- **NCX** (`ncx.dfy`, `navmap.dfy`, `books.dfy`): `prep_ncx` walks the
  front pages, then each part with its chapters nested inside its
  navPoint, then the back pages. It numbers them with consecutive play
  orders from 1. The traversal appends every page to the page list and
  records the first part it meets. The program keeps that list and that
  first part in globals. Here they are an explicit `State` that goes in
  and comes out.
- **OPF** (`opf.dfy`, `markup.dfy`, `mime.dfy`): `prep_opf` builds the
  package descriptor from the state `prep_ncx` left:
  - the stripped metadata;
  - a manifest of three fixed items, then every page's items, then the
    asset images;
  - a spine that starts with the table of contents (non-linear), marks
    the first page non-linear and every later page linear;
  - a guide holding "Beginning" (the first part), the table of contents,
    and every page that has a guide type.

  An image or asset whose last extension is not `png` or `jpg` is an
  error (a `KeyError` in the program). So is a book with no part (the
  guide dereferences `None`).
- **TOC page** (`toc.dfy`): the listing loop of the table-of-contents
  XHTML. It covers every page after the first, with a `<br/>` when the
  level leaves chapter level, and the level-dependent entry markup.
- **Pipeline** (`epub.dfy`): the run as the main block orders it. The NCX
  comes first, from an empty state; then the OPF from the resulting state;
  then the TOC listing from the resulting page list. Lemmas show that the
  three documents agree on the order of pages.

`text.dfy` holds the string helpers the program gets from Python: `%d`,
`split` on a separator, and `strip`. It also defines `Join` as the inverse
of `Split`, so that splitting can be stated as a round trip; the program
itself only concatenates its lines with `"".join(xml)`. `results.dfy` holds the error
type. `seqs.dfy` holds small sequence-concatenation steps used by the
proofs.

## Model

| member | source | states |
|---|---|---|
| Text.NatToString | epub.py:84 | `%d` of a play order is a non-empty run of decimal digits with no leading zero; one digit exactly for values below 10 |
| Text.DigitsRoundTrip | epub.py:84 | reading the decimal rendering back gives the number |
| Text.NatToStringInjective | epub.py:84 | two play orders render the same exactly when they are equal |
| Text.DigitPrefixOfNumeral | epub.py:84 | a numeral followed by a non-digit can be recovered from the text after it |
| Text.Split | epub.py:99 | `split(".")` yields at least one piece, and no piece contains the separator |
| Text.SplitEnds | epub.py:99 | the first piece is a prefix and the last piece a suffix of the string, each bounded by the separator or the string's end |
| Text.JoinSplit | epub.py:99 | joining the pieces of a split with the separator gives the original string back |
| Text.SplitJoin | epub.py:99 | splitting a join of separator-free pieces gives those pieces back |
| Text.Strip | epub.py:195 | `strip()` leaves no whitespace at either end |
| Text.StripPads | epub.py:195 | the original text is the stripped text with some whitespace before and after it |
| Text.StripUnique | epub.py:195 | any text without whitespace at its ends that is padded out to the original by whitespace is the stripped text |
| Text.StripCharacterization | epub.py:195 | strip removes exactly the leading and trailing whitespace and keeps the middle intact |
| Text.StripIdempotent | epub.py:244 | stripping twice is stripping once |
| Text.Between | epub.py:85 | text cut out between an opening and a closing string is exactly what lies between them |
| Text.BetweenRoundTrip | epub.py:85 | a value written between an opening and a closing string is read back unchanged |
| Escape.GetLabel | epub.py:116-121 | the escaped label is ASCII only, has no raw `<` or `>`, and is never shorter than the label |
| Escape.GetLabelIdentity | epub.py:116-121 | the label is unchanged exactly when every character is ASCII and not `&`, `<` or `>` |
| Escape.UnescapeGetLabel | epub.py:116-121 | decoding the entities of the escaped label gives the label back |
| Escape.GetLabelInjective | epub.py:116-121 | distinct labels escape to distinct text |
| Escape.GetLabelAppend | epub.py:121 | escaping works character by character: the escape of a concatenation is the concatenation of the escapes |
| Escape.UnescapeReference | epub.py:121 | a decimal character reference `&#n;` written for a non-ASCII character decodes to that character |
| Escape.GetLabelExample | epub.py:121 | "Café & Co." becomes "Caf&#233; &amp; Co." |
| Mime.Extension | epub.py:99 | the last `.`-separated piece of the name: a dot-free suffix that is the whole name or follows a dot |
| Mime.Stem | epub.py:255-256 | the first `.`-separated piece: a dot-free prefix that is the whole name or precedes a dot |
| Mime.LookupMime | epub.py:26-29 | `png` maps to image/png, `jpg` to image/jpeg, and any other extension is an unknown-extension error |
| Mime.UnknownExtensionExample | epub.py:99 | an image named "cover.gif" is rejected with the extension "gif" |
| Mime.CaseSensitiveExample | epub.py:26-29 | "photo.JPG" is rejected: the lookup is case-sensitive |
| Mime.MultipleDotsExample | epub.py:255-257 | "map.v2.png" is typed by its last piece (png) and its asset id uses its first piece ("map") |
| Markup.RenderItemInjective | epub.py:96 | two quote-free manifest items render to the same line exactly when they are equal |
| Markup.RenderItemRefInjective | epub.py:103-113 | two spine entries with quote-free idrefs render to the same line exactly when their idref and linear flag agree (`yes` or `no`) |
| Markup.RenderReferenceInjective | epub.py:272-277 | two quote-free guide references render to the same line exactly when they are equal |
| Pages.IdRefReadBack | epub.py:75 | the idref `kind-id` is read back as the page's kind and id |
| Pages.FileNameReadBack | epub.py:76 | the file name is the idref followed by `.xhtml`, and reads back as the page's kind and id |
| Pages.IdRefInjective | epub.py:75 | two pages share an idref exactly when they have the same kind and id |
| Pages.FileNameInjective | epub.py:76 | two pages share a file name exactly when they have the same kind and id |
| Pages.NavPointReadBack | epub.py:79-86 | the navPoint opening is three lines: the id carries the play order as a decimal number, the label is written raw (not escaped), and the content is the page's file name |
| Pages.NavPointIdsDistinct | epub.py:79-86 | the navPoint ids of two play orders coincide exactly when the play orders do |
| Pages.GenOpfItem | epub.py:89-100 | it succeeds exactly when there is no image or the image's extension is known, and fails otherwise with that extension; on success it gives the page item, then (with an image) `img-<id>`, `img/<file>` and the MIME type for png or jpg |
| Books.PartsOrderLength | epub.py:201-215 | the parts contribute one entry per part and one per chapter |
| Books.PageUriOf | epub.py:195 | a front or back page becomes a misc page at level 0 with its element's id and guide, labelled by its text stripped of surrounding whitespace |
| Books.PartUriOf | epub.py:202 | a part becomes a part page at level 1 with its id, labelled by its stripped text |
| Books.ChapterUriOf | epub.py:211 | a chapter becomes a chapter page at level 2 with its id and image, labelled by its stripped text |
| Books.DocumentOrderLayout | epub.py:194-224 | the traversal lists one page per front page, part, chapter and back page: the front pages first and the back pages last |
| Books.PartsOrderAppend | epub.py:201-217 | the parts are walked one after the other: the listing of a concatenation is the concatenation of the listings |
| Books.PartPlacement | epub.py:201-217 | part i appears after the front pages, the earlier parts and their chapters, directly followed by its own chapters |
| Books.DocumentOrderWellFormed | epub.py:195-220 | every listed page has the level its kind gets: misc pages 0, parts 1, chapters 2 |
| Ncx.NcxHeadReadBack | epub.py:173-189 | the NCX head is eleven lines carrying the book's identifier as `dtb:uid`, its title and its creator, each unchanged |
| NavMap.ForestNumbering | epub.py:191-224 | the navPoints open in preorder with consecutive play orders from the starting number |
| NavMap.ForestBalanced | epub.py:192-226 | every navPoint the traversal opens is closed, and never more are closed than opened |
| Ncx.EmitLeaves | epub.py:194-199 | each front or back page adds its navPoint, opened and closed, appends itself to the page list and takes the next play order |
| Ncx.EmitPart | epub.py:201-217 | a part adds its navPoint with its chapters' navPoints inside, appends itself then its chapters to the page list, and becomes the first page when none was recorded |
| Ncx.EmitParts | epub.py:201-217 | the parts, one after the other, extend the document, the page list, the play order and the first page accordingly |
| Ncx.PrepNcx | epub.py:164-229 | the NCX document is the head, then the navigation map of the book, then the closing tags; the page list grows by exactly the document order; the first page stays if set, and is otherwise the first part, if any |
| Ncx.BookForestPreorder | epub.py:194-224 | the navigation tree read in preorder is the document order |
| Ncx.NcxPlayOrders | epub.py:191-224 | the k-th navPoint opened is the k-th page of the document with play order k + 1, and there are as many as there are entries |
| Ncx.NcxBalanced | epub.py:192-226 | the navigation map's navPoints are properly nested |
| Ncx.PartNesting | epub.py:201-217 | a part's navPoint opens, each chapter's navPoint opens and closes in turn with the following play orders, and only then does the part close |
| Opf.UriItems | epub.py:251-252 | the page items succeed exactly when every page image has a known extension; they hold at least one item per page |
| Opf.UriItemsAppend | epub.py:251-252 | the page items of two lists in a row are the items of the first followed by those of the second, and an error in the first list is the one reported |
| Opf.UriItemsSingle | epub.py:251-252 | one page contributes exactly what `gen_opf_item` gives it |
| Opf.UriItemsError | epub.py:251-252 | a failure reports the extension of the first page whose image is unknown |
| Opf.UriItemsPages | epub.py:251-252 | the XHTML items among the page items are the pages' own items, in page order |
| Opf.UriItemsImages | epub.py:98-100 | every page with an image has an image item in the manifest |
| Opf.AssetItem | epub.py:254-258 | an asset succeeds exactly when its last extension is known, and fails otherwise with it; its item is `asset-<first piece>`, `img/<src>` with the MIME type of its extension |
| Opf.AssetItems | epub.py:254-258 | the asset items succeed exactly when every asset is known, one item per asset |
| Opf.AssetItemsContents | epub.py:254-258 | the k-th asset item is the item of the k-th asset |
| Opf.AssetItemsError | epub.py:254-258 | a failure reports the extension of the first asset whose extension is unknown |
| Opf.Manifest | epub.py:246-260 | the manifest succeeds exactly when page images and assets are all known; the page error comes before the asset error; it is the stylesheet, NCX and TOC items, then the page items, then one item per asset |
| Opf.ManifestXhtml | epub.py:246-260 | the manifest's XHTML items are the TOC page followed by every page, in document order |
| Opf.SpineRefs | epub.py:264-268 | one itemref per page, referring to its idref; only the first can be non-linear |
| Opf.Spine | epub.py:261-270 | the spine starts with the non-linear TOC entry; page k follows at position k + 1, linear exactly when it is not the first page |
| Opf.SpineMatchesManifest | epub.py:246-270 | the spine refers to the manifest's XHTML items one for one, in order |
| Opf.GuideRefsExact | epub.py:275-277 | a page gets a guide reference exactly when it has a guide type, and the guide holds nothing else |
| Opf.GuideRefsAppend | epub.py:275-277 | the guide references of a concatenation are the concatenation of the references |
| Opf.Guide | epub.py:271-279 | the guide exists exactly when a first page was recorded, and is otherwise the missing-first-page error; it is "Beginning" at the first page, the table of contents, then the pages' guide references |
| Opf.StripAll | epub.py:243-244 | one line per metadata element, in order: no whitespace at either end, and the element is that line padded with whitespace |
| Opf.BuildPackage | epub.py:232-282 | the package exists exactly when images and assets are known and a first page exists; the missing first page is reported only after the manifest succeeded; its parts are the stripped metadata of the book, the manifest, spine and guide |
| Opf.RenderPackageLayout | epub.py:240-282 | the serialised package is the package tag, the metadata lines as given, the manifest section with one rendered item per manifest entry in order, then spine and guide, and the closing tag; eight fixed lines in all |
| Opf.PrepOpf | epub.py:232-282 | the same success condition and error precedence as the package; the document opens with the package tag, ends with its closing tag, and has 11 fixed lines besides metadata, manifest, spine and guide entries |
| Toc.AnchorReadBack | epub.py:375 | the link's text, between the tag that names the page's file and the closing tags, decodes to the page's label |
| Toc.EntryLevel | epub.py:375-382 | the entry's level can be read back off its markup (emphasis for 0, indentation for 2, strong otherwise), and no entry is a bare line break |
| Toc.EntryHoldsAnchor | epub.py:375 | every entry contains the link to the page with its escaped label |
| Toc.Listed | epub.py:368 | the listing covers every page but the first, in order |
| Toc.ListingEntries | epub.py:368-382 | leaving out the line breaks, the listing is exactly one entry per page, in order |
| Toc.ListingLength | epub.py:368-373 | the listing holds one line per page plus one break for each place where a chapter-level page is followed by a page of another level |
| Toc.LevelStep | epub.py:369-373 | a break is written exactly when the previous page was at chapter level and this one is not, given the last level seen; the last level becomes this page's |
| Toc.TocListing | epub.py:351-382 | the loop, which keeps the last level as mutable state, produces the listing of every page after the first |
| Toc.TocHeadReadBack | epub.py:354-366 | the page head is twelve lines carrying the book's title in the `<title>` and its identifier as `EPB-UUID`, each unchanged |
| Toc.WritePage | epub.py:353-385 | a page written as head, listing loop and foot starts with the head, ends with the foot, and between them holds one line per listed page plus one per break, whose entries are the pages after the first, in order |
| Toc.TocPage | epub.py:351-385 | the table-of-contents page starts with its twelve head lines, ends with `</p>` and the closing tags, and the entries between them are those of the pages after the first, in order |
| Epub.AfterNcx | epub.py:22-23 | from an empty page list, the state after the NCX holds one page per entry, and a first page exactly when the book has a part |
| Epub.RunNcx | epub.py:313 | the NCX run from the initial globals produces the NCX document and exactly that state |
| Epub.BuildEpub | epub.py:298-326 | the run succeeds exactly when images and assets are known and the book has a part; the missing first page is reported only when everything else is fine; on success it holds the fixed mimetype and container, the NCX document, the package of the state after the NCX, and the TOC listing of its page list |
| Epub.OrderAgreement | epub.py:191-382 | the k-th page of the document is opened with play order k + 1 in the NCX, is spine entry k + 1, and, from the second page on, is entry k - 1 of the TOC listing |
| Epub.TocOrder | epub.py:368-382 | the TOC entries are the pages after the first, in order |
| Epub.GuideInManifest | epub.py:271-277 | every guide reference points at an XHTML item of the manifest |
| Epub.BeginningIsPage | epub.py:207-208 | the first part, when there is one, has its page item in the manifest |
| Epub.ExampleOrder | epub.py:194-224 | a book with a title page and one part of two chapters lists title, part, chapter, chapter |
| Epub.ExampleSpine | epub.py:261-268 | for that book the spine is toc (no), misc-title (no), part-p1, chapter-c1, chapter-c2 (yes) |
| Epub.ExamplePlayOrders | epub.py:191-224 | for that book the navPoints take play orders 1 to 4 in document order |

## Left out

- Parsing the book XML, the XPath queries and `etree.tostring`: a book is
  a `Book` value, and each `<metadata>` element is an already serialised
  string.
- Pretty-printing through `lxml` before the files are written, the XML
  declarations and DOCTYPE lines written with them, and all file writes,
  directory creation (`mkdir_p`) and copies of the stylesheet and images:
  the model returns the documents as sequences of the lines appended.
- `URI.format_content` and the HTML parsing and rewriting of each page:
  it works on files that are outside the generated documents.
- The command line (`sys.argv`) and the error report when the book cannot
  be parsed.
- Missing element text and a missing `src` (`None`): the program raises
  on `.strip()` (epub.py:195, 202, 211, 220) and on
  `img.get("src").split` (epub.py:255). The model takes every label and
  asset name as a string. A missing id or identifier does not raise: `%`
  writes it as the text `None` (an idref `misc-None`), which is an
  ordinary id string in the model. An image or guide is optional.
- The partial output written before an exception: an error stops the run
  and is returned as a `Result` error. The program raises `KeyError` for
  an unknown extension and `AttributeError` when there is no first page.
- Text.Strip: only ASCII whitespace (space, tab, newline, carriage
  return, vertical tab, form feed) is stripped, not the other Unicode
  whitespace that Python's `strip` also removes.
- Epub.BuildEpub: the success condition leaves out the re-parse through
  `lxml` at epub.py:318 and 326. A raw `&` or `<` anywhere, or a `"` in
  an attribute value, makes the program raise there. Such text can come
  from a navPoint label (epub.py:85), a page id in a `src`, `id` or
  `href` (epub.py:86, 96), an image file name (epub.py:100), the
  identifier (epub.py:180), the title or creator (epub.py:188-189), or a
  guide type or title (epub.py:277). The model reports success for such
  a book.
- Epub.BuildEpub: the success condition also leaves out the writes to
  the table-of-contents file. Under Python 2 a file opened in text mode
  takes byte strings, so any non-ASCII value written there unescaped
  raises `UnicodeEncodeError`. That is the title and the identifier in
  the head (epub.py:357, 360), and the file name `uri.uri` of any listed
  page in its anchor (epub.py:375, written at 378, 380 or 382), which
  carries the page's id. The label is escaped by `get_label` and is safe.
  The page titles written by `format_content` (epub.py:148) raise the
  same way, and `format_content` is not part of this model.
- Epub.BuildEpub: the table-of-contents page is kept as its listing. The
  fixed head and foot around it are `Toc.TocHead` and `Toc.TocFoot`, and
  `Toc.TocPage` assembles all three.
- The program's globals (`uri_list`, `first_page`, `title`, `uuid`) are
  threaded explicitly. The title and identifier the TOC head shows are
  the book's fields.
- Two asset names that share their first piece (`a.png` and `a.jpg`) get
  the same manifest id `asset-a`. The model keeps this behaviour and does
  not claim that manifest ids are distinct.

=== FILE: books.dfy ===
/** The book tree as the traversal sees it, with XML parsing abstracted
    away: metadata strings, front pages, parts with their chapters (every
    chapter element beneath the part, in document order), back pages and
    book-level image assets. */
module Books {
  import opened Results
  import opened Text
  import opened Pages

  /** A <page> under <front> or <back>: id, text, optional guide attribute. */
  datatype PageNode = PageNode(id: string, text: string, guide: Option<string>)

  /** A <chapter>: id, text, optional img attribute. */
  datatype ChapterNode = ChapterNode(id: string, text: string, img: Option<string>)

  /** A <part> and the chapters found anywhere beneath it. */
  datatype PartNode = PartNode(id: string, text: string, chapters: seq<ChapterNode>)

  /** `metadata` holds each serialised <metadata> element; `assets` the src
      of each <assets/img>. */
  datatype Book = Book(identifier: string, title: string, creator: string,
                       metadata: seq<string>,
                       front: seq<PageNode>, parts: seq<PartNode>, back: seq<PageNode>,
                       assets: seq<string>)

  /** Front and back pages are both "misc" at level 0. */
  function PageUri(p: PageNode): Uri {
    Uri(Misc, 0, p.id, Strip(p.text), None, p.guide)
  }

  function PartUri(p: PartNode): Uri {
    Uri(Part, 1, p.id, Strip(p.text), None, None)
  }

  function ChapterUri(c: ChapterNode): Uri {
    Uri(Chapter, 2, c.id, Strip(c.text), c.img, None)
  }

  function PageUris(ps: seq<PageNode>): seq<Uri> {
    seq(|ps|, k requires 0 <= k < |ps| => PageUri(ps[k]))
  }

  function ChapterUris(cs: seq<ChapterNode>): seq<Uri> {
    seq(|cs|, k requires 0 <= k < |cs| => ChapterUri(cs[k]))
  }

  /** A part immediately followed by its chapters. */
  function PartBlock(p: PartNode): seq<Uri> {
    [PartUri(p)] + ChapterUris(p.chapters)
  }

  /** Total number of chapters over a sequence of parts. */
  function ChapterCount(ps: seq<PartNode>): nat {
    if ps == [] then 0 else |ps[0].chapters| + ChapterCount(ps[1..])
  }

  /** The parts in order, each followed by its chapters. */
  function PartsOrder(ps: seq<PartNode>): seq<Uri> {
    if ps == [] then [] else PartBlock(ps[0]) + PartsOrder(ps[1..])
  }

  /** Document order: front pages, parts with their chapters, back pages. */
  function DocumentOrder(b: Book): seq<Uri> {
    PageUris(b.front) + PartsOrder(b.parts) + PageUris(b.back)
  }

  /** Number of pages the traversal produces for a book. */
  function EntryCount(b: Book): nat {
    |b.front| + |b.parts| + ChapterCount(b.parts) + |b.back|
  }

  lemma {:induction false} PartsOrderLength(ps: seq<PartNode>)
    ensures |PartsOrder(ps)| == |ps| + ChapterCount(ps)
  {
    if ps != [] {
      PartsOrderLength(ps[1..]);
    }
  }

  /** The traversal produces one page per front page, part, chapter and
      back page: the front pages first, the back pages last. */
  lemma DocumentOrderLayout(b: Book)
    ensures var r := DocumentOrder(b);
      && |r| == EntryCount(b)
      && r[..|b.front|] == PageUris(b.front)
      && r[|r| - |b.back|..] == PageUris(b.back)
  {
    PartsOrderLength(b.parts);
    var r := DocumentOrder(b);
    var lead := PageUris(b.front) + PartsOrder(b.parts);
    assert r == lead + PageUris(b.back);
    assert r[..|b.front|] == lead[..|b.front|];
    assert r[|r| - |b.back|..] == PageUris(b.back);
  }

  /** A front or back page: a misc page at level 0 with the element's id
      and guide, labelled by its text with surrounding whitespace removed. */
  lemma PageUriOf(p: PageNode)
    ensures var u := PageUri(p);
      && u.kind == Misc && LevelMatchesKind(u)
      && u.id == p.id && u.guide == p.guide
      && Trimmed(u.labelText) && Padded(p.text, u.labelText)
  {
    StripPads(p.text);
  }

  /** A part: level 1, no image or guide, the stripped text as label. */
  lemma PartUriOf(p: PartNode)
    ensures var u := PartUri(p);
      && u.kind == Part && LevelMatchesKind(u) && u.id == p.id
      && Trimmed(u.labelText) && Padded(p.text, u.labelText)
  {
    StripPads(p.text);
  }

  /** A chapter: level 2 with the element's image, the stripped text as label. */
  lemma ChapterUriOf(c: ChapterNode)
    ensures var u := ChapterUri(c);
      && u.kind == Chapter && LevelMatchesKind(u)
      && u.id == c.id && u.img == c.img
      && Trimmed(u.labelText) && Padded(c.text, u.labelText)
  {
    StripPads(c.text);
  }

  lemma {:induction false} ChapterCountAppend(a: seq<PartNode>, c: seq<PartNode>)
    ensures ChapterCount(a + c) == ChapterCount(a) + ChapterCount(c)
  {
    if a != [] {
      assert (a + c)[1..] == a[1..] + c;
      assert (a + c)[0] == a[0];
      ChapterCountAppend(a[1..], c);
    } else {
      assert a + c == c;
    }
  }

  lemma {:induction false} PartsOrderAppend(a: seq<PartNode>, c: seq<PartNode>)
    ensures PartsOrder(a + c) == PartsOrder(a) + PartsOrder(c)
  {
    if a != [] {
      assert (a + c)[1..] == a[1..] + c;
      assert (a + c)[0] == a[0];
      PartsOrderAppend(a[1..], c);
    } else {
      assert a + c == c;
    }
  }

  lemma PartsOrderSplit(ps: seq<PartNode>, i: nat)
    requires i < |ps|
    ensures PartsOrder(ps) == PartsOrder(ps[..i]) + PartBlock(ps[i]) + PartsOrder(ps[i + 1..])
  {
    assert ps == ps[..i] + ps[i..];
    PartsOrderAppend(ps[..i], ps[i..]);
    assert ps[i..][0] == ps[i] && ps[i..][1..] == ps[i + 1..];
  }

  /** Where part i sits in document order: after the front pages, the
      earlier parts and their chapters, and directly followed by its own
      chapters. */
  lemma PartPlacement(b: Book, i: nat)
    requires i < |b.parts|
    ensures var p := b.parts[i];
      var start := |b.front| + i + ChapterCount(b.parts[..i]);
      && start + 1 + |p.chapters| <= |DocumentOrder(b)|
      && DocumentOrder(b)[start..start + 1 + |p.chapters|] == [PartUri(p)] + ChapterUris(p.chapters)
  {
    var p := b.parts[i];
    PartsOrderSplit(b.parts, i);
    var before := PageUris(b.front) + PartsOrder(b.parts[..i]);
    var blk := PartBlock(p);
    var after := PartsOrder(b.parts[i + 1..]) + PageUris(b.back);
    var all := DocumentOrder(b);
    assert all == before + blk + after;
    PartsOrderLength(b.parts[..i]);
    assert |before| == |b.front| + i + ChapterCount(b.parts[..i]);
    assert all[|before|..|before| + |blk|] == blk;
  }

  /** The level of a page agrees with its kind. */
  predicate LevelMatchesKind(u: Uri) {
    match u.kind
    case Misc => u.level == 0 && u.img.None?
    case Part => u.level == 1 && u.img.None? && u.guide.None?
    case Chapter => u.level == 2 && u.guide.None?
  }

  /** Every page has the level of its kind, only misc pages carry a guide,
      only chapters an image, and every label is stripped. */
  predicate WellFormed(us: seq<Uri>) {
    forall k :: 0 <= k < |us| ==> LevelMatchesKind(us[k]) && Trimmed(us[k].labelText)
  }

  lemma PartBlockWellFormed(p: PartNode)
    ensures WellFormed(PartBlock(p))
  {
    var cs := ChapterUris(p.chapters);
    forall k | 0 <= k < |cs|
      ensures LevelMatchesKind(cs[k]) && Trimmed(cs[k].labelText)
    {
      assert cs[k] == ChapterUri(p.chapters[k]);
    }
    var blk := PartBlock(p);
    forall k | 0 <= k < |blk|
      ensures LevelMatchesKind(blk[k]) && Trimmed(blk[k].labelText)
    {
      if k > 0 {
        assert blk[k] == cs[k - 1];
      }
    }
  }

  lemma WellFormedAppend(a: seq<Uri>, c: seq<Uri>)
    requires WellFormed(a) && WellFormed(c)
    ensures WellFormed(a + c)
  {
    forall k | 0 <= k < |a + c|
      ensures LevelMatchesKind((a + c)[k]) && Trimmed((a + c)[k].labelText)
    {
      if k < |a| {
        assert (a + c)[k] == a[k];
      } else {
        assert (a + c)[k] == c[k - |a|];
      }
    }
  }

  lemma {:induction false} PartsOrderWellFormed(ps: seq<PartNode>)
    ensures WellFormed(PartsOrder(ps))
  {
    if ps != [] {
      PartsOrderWellFormed(ps[1..]);
      PartBlockWellFormed(ps[0]);
      WellFormedAppend(PartBlock(ps[0]), PartsOrder(ps[1..]));
    }
  }

  lemma PageUrisWellFormed(ps: seq<PageNode>)
    ensures WellFormed(PageUris(ps))
  {
    var us := PageUris(ps);
    forall k | 0 <= k < |us|
      ensures LevelMatchesKind(us[k]) && Trimmed(us[k].labelText)
    {
      assert us[k] == PageUri(ps[k]);
    }
  }

  lemma DocumentOrderWellFormed(b: Book)
    ensures WellFormed(DocumentOrder(b))
  {
    PartsOrderWellFormed(b.parts);
    PageUrisWellFormed(b.front);
    PageUrisWellFormed(b.back);
    WellFormedAppend(PageUris(b.front), PartsOrder(b.parts));
    WellFormedAppend(PageUris(b.front) + PartsOrder(b.parts), PageUris(b.back));
  }
}

=== FILE: epub.dfy ===
/** The whole run: the NCX traversal from an empty page list, then the
    package descriptor and the table-of-contents page from the state it
    leaves, and the agreement between the three on the order of pages. */
module Epub {
  import opened Results
  import opened Markup
  import opened Pages
  import opened Books
  import opened NavMap
  import opened Ncx
  import opened Opf
  import opened Toc
  import opened Seqs

  /** The content of the "mimetype" file, written without a newline. */
  const MimetypeFile := "application/epub+zip"

  /** The content of META-INF/container.xml, one element per write. */
  const ContainerFile: seq<string> := [
    "<?xml version=\"1.0\" encoding=\"UTF-8\"?>\n",
    "<container version=\"1.0\" xmlns=\"urn:oasis:names:tc:opendocument:xmlns:container\"><rootfiles><rootfile full-path=\"content.opf\" media-type=\"application/oebps-package+xml\"/></rootfiles></container>"]

  /** The generated documents, before pretty-printing and file writes.
      The table-of-contents page is kept as its listing: its fixed head
      and foot are TocHead and TocFoot. */
  datatype Output = Output(mimetype: string, container: seq<string>, ncx: seq<string>, opf: seq<string>,
                           tocListing: seq<string>)

  /** The state the traversal leaves when it starts from nothing. */
  function AfterNcx(b: Book): (st: State)
    ensures |st.uriList| == EntryCount(b)
    ensures st.firstPage.Some? <==> |b.parts| > 0
  {
    DocumentOrderLayout(b);
    State(DocumentOrder(b), if |b.parts| > 0 then Some(PartUri(b.parts[0])) else None)
  }

  /** The program's main sequence, with parsing and I/O left out: it fails
      on an unknown image extension, or, failing that, on a book without
      parts. */
  method BuildEpub(b: Book) returns (r: Result<Output>)
    ensures r.Ok? <==> ImagesOk(DocumentOrder(b)) && AssetsOk(b.assets) && |b.parts| > 0
    ensures r.Err? ==> (r.error == NoFirstPage <==> ImagesOk(DocumentOrder(b)) && AssetsOk(b.assets))
    ensures r.Ok? ==> && r.value.mimetype == MimetypeFile
                      && r.value.container == ContainerFile
                      && r.value.ncx == NcxDocument(b)
                      && r.value.opf == PrepOpf(b, AfterNcx(b)).value
                      && r.value.tocListing == Listing(Listed(DocumentOrder(b)))
  {
    var ncx, st := RunNcx(b);
    var opf := PrepOpf(b, st);
    if opf.Err? {
      return Err(opf.error);
    }
    var listing := TocListing(st.uriList);
    r := Ok(Output(MimetypeFile, ContainerFile, ncx, opf.value, listing));
  }

  method RunNcx(b: Book) returns (ncx: seq<string>, st: State)
    ensures ncx == NcxDocument(b)
    ensures st == AfterNcx(b)
  {
    ncx, st := PrepNcx(b, Initial);
    FromEmpty(Initial.uriList, DocumentOrder(b));
  }

  /** One order everywhere: the k-th page of the document has play order
      k + 1 in the navigation map, is the (k + 1)-th spine entry after the
      table of contents, and, from the second page on, is entry k - 1 of
      the table-of-contents listing. */
  lemma OrderAgreement(b: Book, k: nat)
    requires k < EntryCount(b)
    ensures var us := DocumentOrder(b);
      && |us| == EntryCount(b)
      && |Opened(EventsForest(BookForest(b), 1))| == |us|
      && Opened(EventsForest(BookForest(b), 1))[k] == Open(us[k], k + 1)
      && Spine(us)[k + 1] == ItemRef(IdRef(us[k]), k > 0)
      && |Entries(Listing(Listed(us)))| == |us| - 1
      && (k > 0 ==> Entries(Listing(Listed(us)))[k - 1] == EntryMarkup(us[k]))
  {
    DocumentOrderLayout(b);
    NcxPlayOrders(b);
    TocOrder(DocumentOrder(b));
  }

  /** The listing's entries are the pages after the first, in order. */
  lemma TocOrder(us: seq<Uri>)
    ensures |Entries(Listing(Listed(us)))| == if us == [] then 0 else |us| - 1
    ensures forall k :: 0 < k < |us| ==> Entries(Listing(Listed(us)))[k - 1] == EntryMarkup(us[k])
  {
    var rest := Listed(us);
    ListingEntries(rest, |rest|);
    assert rest[..|rest|] == rest;
    var e := Entries(Listing(rest));
    assert e == EntryMarkups(rest);
    forall k | 0 < k < |us|
      ensures e[k - 1] == EntryMarkup(us[k])
    {
      assert rest[k - 1] == us[k];
      assert e[k - 1] == EntryMarkups(rest)[k - 1];
    }
  }

  /** Every guide reference points at an XHTML item of the manifest: the
      first part, the table of contents, or a page with a guide type. */
  lemma GuideInManifest(b: Book)
    requires BuildPackage(b, AfterNcx(b)).Ok?
    ensures var p := BuildPackage(b, AfterNcx(b)).value;
      forall x :: x in p.guide ==> exists it :: it in XhtmlItems(p.manifest) && it.href == x.href
  {
    var st := AfterNcx(b);
    var us := st.uriList;
    var p := BuildPackage(b, st).value;
    var pages := XhtmlItems(p.manifest);
    ManifestXhtml(us, b.assets);
    assert pages == [FixedItems[2]] + PageItems(us);
    BeginningIsPage(b);
    GuideRefsArePages(us);
    forall x | x in p.guide
      ensures exists it :: it in pages && it.href == x.href
    {
      var i :| 0 <= i < |p.guide| && p.guide[i] == x;
      if i == 0 {
        assert PageItem(PartUri(b.parts[0])) in pages;
      } else if i == 1 {
        assert pages[0] == FixedItems[2];
      } else {
        assert x in GuideRefs(us);
        var it :| it in PageItems(us) && it.href == x.href;
        assert it in pages;
      }
    }
  }

  /** The first part is a page of the document. */
  lemma BeginningIsPage(b: Book)
    requires |b.parts| > 0
    ensures PageItem(PartUri(b.parts[0])) in PageItems(DocumentOrder(b))
  {
    var us := DocumentOrder(b);
    PartPlacement(b, 0);
    DocumentOrderLayout(b);
    assert us[|b.front|] == us[|b.front|..|b.front| + 1][0];
    assert PageItems(us)[|b.front|] == PageItem(PartUri(b.parts[0]));
  }

  lemma GuideRefsArePages(us: seq<Uri>)
    ensures forall x :: x in GuideRefs(us) ==> exists it :: it in PageItems(us) && it.href == x.href
  {
    GuideRefsExact(us);
    forall x | x in GuideRefs(us)
      ensures exists it :: it in PageItems(us) && it.href == x.href
    {
      var k :| 0 <= k < |us| && HasGuide(us[k]) && x == GuideRef(us[k]);
      assert PageItems(us)[k] == PageItem(us[k]);
    }
  }

  // ---------------------------------------------------------------------
  // A worked example

  /** One front page, one part with two chapters, no back pages. */
  const ExampleBook := Book("urn:example", "Example", "Author", [],
    [PageNode("title", "Title", None)],
    [PartNode("p1", "Part", [ChapterNode("c1", "One", None), ChapterNode("c2", "Two", None)])],
    [], [])

  lemma ExampleDocument()
    ensures var b := ExampleBook;
      var p := b.parts[0];
      DocumentOrder(b) == [PageUri(b.front[0]), PartUri(p), ChapterUri(p.chapters[0]), ChapterUri(p.chapters[1])]
  {
    var b := ExampleBook;
    var p := b.parts[0];
    assert PartsOrder(b.parts) == PartBlock(p) + PartsOrder([]);
    assert ChapterUris(p.chapters) == [ChapterUri(p.chapters[0]), ChapterUri(p.chapters[1])];
  }

  /** The identifiers of the example's own pages. */
  lemma ExampleIds()
    ensures var b := ExampleBook;
      var p := b.parts[0];
      && IdRef(PageUri(b.front[0])) == "misc-title"
      && IdRef(PartUri(p)) == "part-p1"
      && IdRef(ChapterUri(p.chapters[0])) == "chapter-c1"
      && IdRef(ChapterUri(p.chapters[1])) == "chapter-c2"
  {
    var b := ExampleBook;
    var p := b.parts[0];
    PageIdRef(b.front[0]);
    PartIdRef(p);
    ChapterIdRef(p.chapters[0]);
    ChapterIdRef(p.chapters[1]);
  }

  /** The idref of a page built from a node: the kind's name and the
      node's id. */
  lemma PageIdRef(x: PageNode)
    ensures IdRef(PageUri(x)) == "misc-" + x.id
  {
  }

  lemma PartIdRef(x: PartNode)
    ensures IdRef(PartUri(x)) == "part-" + x.id
  {
  }

  lemma ChapterIdRef(x: ChapterNode)
    ensures IdRef(ChapterUri(x)) == "chapter-" + x.id
  {
  }

  /** The example's pages in document order, by identifier. */
  lemma ExampleOrder()
    ensures var us := DocumentOrder(ExampleBook);
      && |us| == 4
      && IdRef(us[0]) == "misc-title" && IdRef(us[1]) == "part-p1"
      && IdRef(us[2]) == "chapter-c1" && IdRef(us[3]) == "chapter-c2"
  {
    ExampleDocument();
    ExampleIds();
  }

  /** The example's spine: the table of contents and the title page out of
      the reading order, the part and its chapters in it. */
  lemma ExampleSpine()
    ensures Spine(DocumentOrder(ExampleBook)) == [
      ItemRef("toc", false), ItemRef("misc-title", false), ItemRef("part-p1", true),
      ItemRef("chapter-c1", true), ItemRef("chapter-c2", true)]
  {
    ExampleOrder();
  }

  /** The example's play orders are 1 to 4 in document order. */
  lemma ExamplePlayOrders()
    ensures var us := DocumentOrder(ExampleBook);
      Opened(EventsForest(BookForest(ExampleBook), 1))
      == [Open(us[0], 1), Open(us[1], 2), Open(us[2], 3), Open(us[3], 4)]
  {
    ExampleOrder();
    NcxPlayOrders(ExampleBook);
  }
}

=== FILE: escape.dfy ===
/** Label escaping for markup: cgi.escape followed by
    encode("ascii", "xmlcharrefreplace"), as one character-level function,
    with the decoder that undoes it. */
module Escape {
  import opened Results
  import opened Text

  /** The replacement for one character of a raw: the three markup
      characters become named entities, other ASCII characters stay, and a
      non-ASCII character becomes a decimal character reference. */
  function EscapeChar(c: char): string {
    if c == '&' then "&amp;"
    else if c == '<' then "&lt;"
    else if c == '>' then "&gt;"
    else if (c as int) < 128 then [c]
    else "&#" + NatToString(c as int) + ";"
  }

  /** Output that is safe to embed in markup text: ASCII only, and without
      raw angle brackets. */
  predicate MarkupSafe(s: string) {
    forall i :: 0 <= i < |s| ==> (s[i] as int) < 128 && s[i] != '<' && s[i] != '>'
  }

  /** A character that escaping leaves alone. */
  predicate Plain(c: char) {
    (c as int) < 128 && c != '&' && c != '<' && c != '>'
  }

  /** The escaped form of a raw (URI.get_label). */
  function GetLabel(raw: string): (r: string)
    ensures MarkupSafe(r)
    ensures |r| >= |raw|
  {
    if raw == [] then [] else EscapeChar(raw[0]) + GetLabel(raw[1..])
  }

  /** Escaping changes a raw exactly when it holds a character that is
      not plain ASCII text. */
  lemma {:induction false} GetLabelIdentity(raw: string)
    ensures GetLabel(raw) == raw <==> forall i :: 0 <= i < |raw| ==> Plain(raw[i])
  {
    if raw != [] {
      GetLabelIdentity(raw[1..]);
      var c := raw[0];
      if Plain(c) {
        assert EscapeChar(c) == [c];
        assert raw == [c] + raw[1..];
        if GetLabel(raw) == raw {
          assert GetLabel(raw[1..]) == raw[1..];
        }
        assert (forall i :: 0 <= i < |raw| ==> Plain(raw[i]))
            <==> (forall i :: 0 <= i < |raw[1..]| ==> Plain(raw[1..][i]));
      } else {
        assert |EscapeChar(c)| > 1;
        assert |GetLabel(raw)| > |raw|;
      }
    }
  }

  /** Code points that are Unicode scalar values, i.e. valid characters. */
  predicate IsScalar(n: nat) {
    n < 0xD800 || (0xE000 <= n < 0x11_0000)
  }

  function Prepend(c: char, r: Option<string>): Option<string> {
    if r.Some? then Some([c] + r.value) else None
  }

  /** Decodes the entities GetLabel produces; None on anything else that
      starts with an ampersand. */
  function Unescape(s: string): Option<string>
    decreases |s|
  {
    if s == [] then Some([])
    else if s[0] != '&' then Prepend(s[0], Unescape(s[1..]))
    else if |s| >= 5 && s[..5] == "&amp;" then Prepend('&', Unescape(s[5..]))
    else if |s| >= 4 && s[..4] == "&lt;" then Prepend('<', Unescape(s[4..]))
    else if |s| >= 4 && s[..4] == "&gt;" then Prepend('>', Unescape(s[4..]))
    else if |s| >= 2 && s[1] == '#' then
      var d := DigitPrefix(s[2..]);
      if 0 < |d| && 2 + |d| < |s| && s[2 + |d|] == ';' && IsScalar(DigitsToNat(d)) then
        Prepend(DigitsToNat(d) as char, Unescape(s[3 + |d|..]))
      else None
    else None
  }

  lemma UnescapeNamed(e: string, c: char, t: string)
    requires (e == "&amp;" && c == '&') || (e == "&lt;" && c == '<') || (e == "&gt;" && c == '>')
    ensures Unescape(e + t) == Prepend(c, Unescape(t))
  {
    var s := e + t;
    assert s[..|e|] == e && s[|e|..] == t;
    assert s[0] == '&' && s[1] == e[1];
  }

  /** The layout of a decimal reference followed by more text. */
  lemma ReferenceShape(n: string, t: string)
    ensures var s := "&#" + n + ";" + t;
      && |s| == 3 + |n| + |t|
      && s[0] == '&' && s[1] == '#'
      && s[2..] == n + [';'] + t
      && s[2 + |n|] == ';'
      && s[3 + |n|..] == t
  {
    var s := "&#" + n + ";" + t;
    assert s == "&#" + (n + [';'] + t);
  }

  lemma UnescapeReference(c: char, t: string)
    requires (c as int) >= 128
    ensures Unescape("&#" + NatToString(c as int) + ";" + t) == Prepend(c, Unescape(t))
  {
    var n := NatToString(c as int);
    var s := "&#" + n + ";" + t;
    ReferenceShape(n, t);
    DigitPrefixOfNumeral(n, ';', t);
    DigitsRoundTrip(c as int);
    assert s[..5] != "&amp;" && s[..4] != "&lt;" && s[..4] != "&gt;" by {
      assert s[..5][1] == '#' && s[..4][1] == '#';
    }
  }

  /** Decoding the escape of one character, followed by anything. */
  lemma UnescapeChar(c: char, t: string)
    ensures Unescape(EscapeChar(c) + t) == Prepend(c, Unescape(t))
  {
    if c == '&' || c == '<' || c == '>' {
      UnescapeNamed(EscapeChar(c), c, t);
    } else if (c as int) < 128 {
      var s := EscapeChar(c) + t;
      assert s[0] == c && s[1..] == t;
    } else {
      UnescapeReference(c, t);
    }
  }

  /** Escaping loses nothing: the raw is recovered from its escape. */
  lemma {:induction false} UnescapeGetLabel(raw: string)
    ensures Unescape(GetLabel(raw)) == Some(raw)
  {
    if raw != [] {
      UnescapeChar(raw[0], GetLabel(raw[1..]));
      UnescapeGetLabel(raw[1..]);
      assert raw == [raw[0]] + raw[1..];
    }
  }

  /** Escaping is injective: different labels never render the same. */
  lemma GetLabelInjective(a: string, b: string)
    ensures GetLabel(a) == GetLabel(b) <==> a == b
  {
    UnescapeGetLabel(a);
    UnescapeGetLabel(b);
  }

  lemma GetLabelCons(c: char, rest: string)
    ensures GetLabel([c] + rest) == EscapeChar(c) + GetLabel(rest)
  {
    assert ([c] + rest)[1..] == rest;
  }

  lemma EscapeExampleChar()
    ensures EscapeChar('é') == "&#233;"
  {
    assert NatToString(2) == "2";
    assert NatToString(23) == "23";
  }

  lemma ExampleSplit()
    ensures "Café & Co." == "Caf" + "é & Co."
    ensures "Caf&#233; &amp; Co." == "Caf" + "&#233; &amp; Co."
  {
  }

  lemma ExampleWords()
    ensures "& Co." == ['&'] + " Co."
    ensures " & Co." == [' '] + "& Co."
    ensures "&amp;" + " Co." == "&amp; Co."
    ensures [' '] + "&amp; Co." == " &amp; Co."
  {
  }

  lemma ExampleAmp()
    ensures GetLabel("& Co.") == "&amp; Co."
  {
    GetLabelIdentity(" Co.");
    ExampleWords();
    GetLabelCons('&', " Co.");
  }

  lemma ExampleTail()
    ensures GetLabel(" & Co.") == " &amp; Co."
  {
    ExampleAmp();
    ExampleWords();
    GetLabelCons(' ', "& Co.");
  }

  lemma ExampleAccent()
    ensures GetLabel("é & Co.") == "&#233; &amp; Co."
  {
    assert "é & Co." == ['é'] + " & Co.";
    GetLabelCons('é', " & Co.");
    EscapeExampleChar();
    ExampleTail();
  }

  /** The worked example: an ampersand and an accented letter. */
  lemma GetLabelExample()
    ensures GetLabel("Café & Co.") == "Caf&#233; &amp; Co."
  {
    GetLabelIdentity("Caf");
    ExampleAccent();
    ExampleSplit();
    GetLabelAppend("Caf", "é & Co.");
  }

  /** Escaping works character by character, so it distributes over
      concatenation. */
  lemma {:induction false} GetLabelAppend(a: string, b: string)
    ensures GetLabel(a + b) == GetLabel(a) + GetLabel(b)
  {
    if a != [] {
      assert (a + b)[1..] == a[1..] + b;
      assert (a + b)[0] == a[0];
      GetLabelAppend(a[1..], b);
    } else {
      assert a + b == b;
    }
  }
}

=== FILE: markup.dfy ===
/** The package-descriptor records and their one-line serialisations. */
module Markup {
  import opened Seqs

  /** A manifest entry: <item id=".." href=".." media-type=".."/>. */
  datatype Item = Item(id: string, href: string, mediaType: string)

  /** A spine entry: <itemref idref=".." linear="yes|no"/>. */
  datatype ItemRef = ItemRef(idref: string, linear: bool)

  /** A guide entry: <reference type=".." title=".." href=".."/>. */
  datatype Reference = Reference(kind: string, title: string, href: string)

  /** One attribute, with the space that precedes it: ` name="value"`. */
  function Attr(name: string, value: string): string {
    " " + name + "=\"" + value + "\""
  }

  function RenderItem(i: Item): string {
    "<item" + (Attr("id", i.id) + (Attr("href", i.href) + (Attr("media-type", i.mediaType) + "/>")))
  }

  function YesNo(b: bool): string {
    if b then "yes" else "no"
  }

  function RenderItemRef(r: ItemRef): string {
    "<itemref" + (Attr("idref", r.idref) + (Attr("linear", YesNo(r.linear)) + "/>"))
  }

  function RenderReference(r: Reference): string {
    "<reference" + (Attr("type", r.kind) + (Attr("title", r.title) + (Attr("href", r.href) + "/>")))
  }

  function RenderItems(items: seq<Item>): seq<string> {
    seq(|items|, k requires 0 <= k < |items| => RenderItem(items[k]))
  }

  function RenderItemRefs(refs: seq<ItemRef>): seq<string> {
    seq(|refs|, k requires 0 <= k < |refs| => RenderItemRef(refs[k]))
  }

  function RenderReferences(refs: seq<Reference>): seq<string> {
    seq(|refs|, k requires 0 <= k < |refs| => RenderReference(refs[k]))
  }

  // ---------------------------------------------------------------------
  // The lines can be read back

  /** An attribute value between double quotes holds no double quote. */
  predicate QuoteFree(s: string) {
    '"' !in s
  }

  /** Two texts that start with the same attribute name and a quote-free
      value agree on the value and on what follows. */
  lemma SameAttr(name: string, x: string, s: string, y: string, t: string)
    requires QuoteFree(x) && QuoteFree(y)
    requires Attr(name, x) + s == Attr(name, y) + t
    ensures x == y && s == t
  {
    var p := " " + name + "=\"";
    var l := Attr(name, x) + s;
    var m := Attr(name, y) + t;
    assert l == p + (x + ['"'] + s);
    assert m == p + (y + ['"'] + t);
    assert l[|p|..] == x + ['"'] + s;
    assert m[|p|..] == y + ['"'] + t;
    SplitAt(x, y, '"', s, t);
  }

  /** Dropping a common opening. */
  lemma SameAfter(p: string, s: string, t: string)
    requires p + s == p + t
    ensures s == t
  {
    assert s == (p + s)[|p|..];
    assert t == (p + t)[|p|..];
  }

  /** With quote-free attribute values, a manifest line determines its item. */
  lemma RenderItemInjective(a: Item, b: Item)
    requires QuoteFree(a.id) && QuoteFree(a.href) && QuoteFree(a.mediaType)
    requires QuoteFree(b.id) && QuoteFree(b.href) && QuoteFree(b.mediaType)
    ensures RenderItem(a) == RenderItem(b) <==> a == b
  {
    if RenderItem(a) == RenderItem(b) {
      var ta := Attr("media-type", a.mediaType) + "/>";
      var tb := Attr("media-type", b.mediaType) + "/>";
      var ha := Attr("href", a.href) + ta;
      var hb := Attr("href", b.href) + tb;
      SameAfter("<item", Attr("id", a.id) + ha, Attr("id", b.id) + hb);
      SameAttr("id", a.id, ha, b.id, hb);
      SameAttr("href", a.href, ta, b.href, tb);
      SameAttr("media-type", a.mediaType, "/>", b.mediaType, "/>");
    }
  }

  /** With a quote-free idref, a spine line determines its entry, the
      linear flag included. */
  lemma RenderItemRefInjective(a: ItemRef, b: ItemRef)
    requires QuoteFree(a.idref) && QuoteFree(b.idref)
    ensures RenderItemRef(a) == RenderItemRef(b) <==> a == b
  {
    if RenderItemRef(a) == RenderItemRef(b) {
      var ta := Attr("linear", YesNo(a.linear)) + "/>";
      var tb := Attr("linear", YesNo(b.linear)) + "/>";
      SameAfter("<itemref", Attr("idref", a.idref) + ta, Attr("idref", b.idref) + tb);
      SameAttr("idref", a.idref, ta, b.idref, tb);
      SameAttr("linear", YesNo(a.linear), "/>", YesNo(b.linear), "/>");
    }
  }

  /** With quote-free attribute values, a guide line determines its reference. */
  lemma RenderReferenceInjective(a: Reference, b: Reference)
    requires QuoteFree(a.kind) && QuoteFree(a.title) && QuoteFree(a.href)
    requires QuoteFree(b.kind) && QuoteFree(b.title) && QuoteFree(b.href)
    ensures RenderReference(a) == RenderReference(b) <==> a == b
  {
    if RenderReference(a) == RenderReference(b) {
      var ha := Attr("href", a.href) + "/>";
      var hb := Attr("href", b.href) + "/>";
      var ta := Attr("title", a.title) + ha;
      var tb := Attr("title", b.title) + hb;
      SameAfter("<reference", Attr("type", a.kind) + ta, Attr("type", b.kind) + tb);
      SameAttr("type", a.kind, ta, b.kind, tb);
      SameAttr("title", a.title, ha, b.title, hb);
      SameAttr("href", a.href, "/>", b.href, "/>");
    }
  }
}

=== FILE: mime.dfy ===
/** The two-entry image MIME table and the file-name pieces used to look
    things up in it. */
module Mime {
  import opened Results
  import opened Text

  /** Media types by file extension; nothing else is known. */
  const MimeTypes: map<string, string> := map["png" := "image/png", "jpg" := "image/jpeg"]

  /** The text after the last dot of a file name, or the whole name when it
      has no dot (name.split(".")[-1]). */
  function Extension(name: string): (ext: string)
    ensures '.' !in ext
    ensures |ext| <= |name| && name[|name| - |ext|..] == ext
    ensures ext == name || (|ext| < |name| && name[|name| - |ext| - 1] == '.')
  {
    SplitEnds(name, '.');
    var parts := Split(name, '.');
    parts[|parts| - 1]
  }

  /** The text before the first dot of a file name, or the whole name when
      it has no dot (name.split(".")[0]). */
  function Stem(name: string): (stem: string)
    ensures '.' !in stem
    ensures |stem| <= |name| && name[..|stem|] == stem
    ensures stem == name || (|stem| < |name| && name[|stem|] == '.')
  {
    SplitEnds(name, '.');
    Split(name, '.')[0]
  }

  /** The table lookup; a missing key is the KeyError of the program. */
  function LookupMime(ext: string): (r: Result<string>)
    ensures ext == "png" ==> r == Ok("image/png")
    ensures ext == "jpg" ==> r == Ok("image/jpeg")
    ensures ext != "png" && ext != "jpg" ==> r == Err(UnknownExtension(ext))
  {
    if ext in MimeTypes then Ok(MimeTypes[ext]) else Err(UnknownExtension(ext))
  }

  /** Whether a file name has an extension the table knows. */
  predicate KnownImage(name: string) {
    Extension(name) in MimeTypes
  }

  lemma JoinTwo(a: string, b: string)
    ensures Join([a, b], '.') == a + "." + b
  {
    assert [a, b][1..] == [b];
  }

  /** An extension the table lacks is refused. */
  lemma UnknownExtensionExample()
    ensures LookupMime(Extension("cover.gif")) == Err(UnknownExtension("gif"))
  {
    JoinTwo("cover", "gif");
    assert "cover" + "." + "gif" == "cover.gif";
    SplitJoin(["cover", "gif"], '.');
  }

  /** Upper case is not folded. */
  lemma CaseSensitiveExample()
    ensures LookupMime(Extension("photo.JPG")).Err?
  {
    JoinTwo("photo", "JPG");
    assert "photo" + "." + "JPG" == "photo.JPG";
    SplitJoin(["photo", "JPG"], '.');
  }

  /** Only the last extension decides the type, and the stem stops at the
      first dot. */
  lemma MultipleDotsExample()
    ensures LookupMime(Extension("map.v2.png")) == Ok("image/png")
    ensures Stem("map.v2.png") == "map"
  {
    JoinTwo("v2", "png");
    assert ["map", "v2", "png"][1..] == ["v2", "png"];
    assert Join(["map", "v2", "png"], '.') == "map" + "." + ("v2" + "." + "png");
    assert "map" + "." + ("v2" + "." + "png") == "map.v2.png";
    SplitJoin(["map", "v2", "png"], '.');
  }
}

=== FILE: navmap.dfy ===
/** The navigation map as a tree of pages, flattened into the stream of
    navPoint openings and closings that the NCX spells out.  The stream is
    the reference the traversal is checked against: each page opens once,
    with play orders numbered in preorder, and closes after everything
    nested in it. */
module NavMap {
  import opened Pages

  /** A page and the pages nested in it. */
  datatype NavTree = NavTree(uri: Uri, children: seq<NavTree>)

  /** One navPoint opening (with its play order) or one closing tag. */
  datatype NavEvent = Open(uri: Uri, playOrder: nat) | Close

  function Size(t: NavTree): nat
    decreases t, 1
  {
    1 + SizeForest(t.children)
  }

  function SizeForest(ts: seq<NavTree>): nat
    decreases ts, 0
  {
    if ts == [] then 0 else Size(ts[0]) + SizeForest(ts[1..])
  }

  /** Pages in preorder: a page, then everything nested in it. */
  function Preorder(t: NavTree): seq<Uri>
    decreases t, 1
  {
    [t.uri] + PreorderForest(t.children)
  }

  function PreorderForest(ts: seq<NavTree>): seq<Uri>
    decreases ts, 0
  {
    if ts == [] then [] else Preorder(ts[0]) + PreorderForest(ts[1..])
  }

  /** The events of a tree whose root gets play order n. */
  function Events(t: NavTree, n: nat): seq<NavEvent>
    decreases t, 1
  {
    [Open(t.uri, n)] + EventsForest(t.children, n + 1) + [Close]
  }

  function EventsForest(ts: seq<NavTree>, n: nat): seq<NavEvent>
    decreases ts, 0
  {
    if ts == [] then [] else Events(ts[0], n) + EventsForest(ts[1..], n + Size(ts[0]))
  }

  /** The openings of an event stream, in order. */
  function Opened(es: seq<NavEvent>): seq<NavEvent> {
    if es == [] then []
    else if es[0].Open? then [es[0]] + Opened(es[1..])
    else Opened(es[1..])
  }

  /** Pages opened one after another with play orders n, n+1, ... */
  function Numbered(us: seq<Uri>, n: nat): seq<NavEvent> {
    seq(|us|, k requires 0 <= k < |us| => Open(us[k], n + k))
  }

  /** Matching of openings and closings: `depth` openings are pending. */
  function Scan(es: seq<NavEvent>, depth: nat): bool {
    if es == [] then depth == 0
    else if es[0].Open? then Scan(es[1..], depth + 1)
    else depth > 0 && Scan(es[1..], depth - 1)
  }

  /** Every opening is closed exactly once, and nothing closes that was
      not opened. */
  predicate Balanced(es: seq<NavEvent>) {
    Scan(es, 0)
  }

  // ---------------------------------------------------------------------
  // Concatenation

  lemma {:induction false} OpenedAppend(a: seq<NavEvent>, b: seq<NavEvent>)
    ensures Opened(a + b) == Opened(a) + Opened(b)
  {
    if a != [] {
      assert (a + b)[1..] == a[1..] + b;
      assert (a + b)[0] == a[0];
      OpenedAppend(a[1..], b);
    } else {
      assert a + b == b;
    }
  }

  lemma NumberedAppend(a: seq<Uri>, b: seq<Uri>, n: nat)
    ensures Numbered(a + b, n) == Numbered(a, n) + Numbered(b, n + |a|)
  {
    var l := Numbered(a + b, n);
    var r := Numbered(a, n) + Numbered(b, n + |a|);
    forall k | 0 <= k < |l|
      ensures l[k] == r[k]
    {
      if k < |a| {
        assert r[k] == Numbered(a, n)[k];
      } else {
        assert r[k] == Numbered(b, n + |a|)[k - |a|];
      }
    }
  }

  lemma {:induction false} SizeAppend(a: seq<NavTree>, b: seq<NavTree>)
    ensures SizeForest(a + b) == SizeForest(a) + SizeForest(b)
  {
    if a != [] {
      assert (a + b)[1..] == a[1..] + b;
      assert (a + b)[0] == a[0];
      SizeAppend(a[1..], b);
    } else {
      assert a + b == b;
    }
  }

  lemma {:induction false} PreorderAppend(a: seq<NavTree>, b: seq<NavTree>)
    ensures PreorderForest(a + b) == PreorderForest(a) + PreorderForest(b)
  {
    if a != [] {
      assert (a + b)[1..] == a[1..] + b;
      assert (a + b)[0] == a[0];
      PreorderAppend(a[1..], b);
    } else {
      assert a + b == b;
    }
  }

  lemma {:induction false} EventsAppend(a: seq<NavTree>, b: seq<NavTree>, n: nat)
    ensures EventsForest(a + b, n) == EventsForest(a, n) + EventsForest(b, n + SizeForest(a))
  {
    if a != [] {
      assert (a + b)[1..] == a[1..] + b;
      assert (a + b)[0] == a[0];
      EventsAppend(a[1..], b, n + Size(a[0]));
    } else {
      assert a + b == b;
    }
  }

  /** Forests concatenate: events number on, sizes add, preorders append. */
  lemma ForestAppend(a: seq<NavTree>, b: seq<NavTree>, n: nat)
    ensures EventsForest(a + b, n) == EventsForest(a, n) + EventsForest(b, n + SizeForest(a))
    ensures SizeForest(a + b) == SizeForest(a) + SizeForest(b)
    ensures PreorderForest(a + b) == PreorderForest(a) + PreorderForest(b)
  {
    EventsAppend(a, b, n);
    SizeAppend(a, b);
    PreorderAppend(a, b);
  }

  // ---------------------------------------------------------------------
  // Play orders: the k-th page in preorder opens with play order n + k.

  lemma {:induction false} TreeNumbering(t: NavTree, n: nat)
    ensures |Preorder(t)| == Size(t)
    ensures Opened(Events(t, n)) == Numbered(Preorder(t), n)
    decreases t, 1
  {
    ForestNumbering(t.children, n + 1);
    var inner := EventsForest(t.children, n + 1);
    OpenedAppend([Open(t.uri, n)], inner);
    OpenedAppend([Open(t.uri, n)] + inner, [Close]);
    assert Opened([Close]) == [];
    assert Opened([Open(t.uri, n)]) == [Open(t.uri, n)];
    NumberedAppend([t.uri], PreorderForest(t.children), n);
    assert Numbered([t.uri], n) == [Open(t.uri, n)];
  }

  lemma {:induction false} ForestNumbering(ts: seq<NavTree>, n: nat)
    ensures |PreorderForest(ts)| == SizeForest(ts)
    ensures Opened(EventsForest(ts, n)) == Numbered(PreorderForest(ts), n)
    decreases ts, 0
  {
    if ts != [] {
      TreeNumbering(ts[0], n);
      ForestNumbering(ts[1..], n + Size(ts[0]));
      OpenedAppend(Events(ts[0], n), EventsForest(ts[1..], n + Size(ts[0])));
      NumberedAppend(Preorder(ts[0]), PreorderForest(ts[1..]), n);
    } else {
      assert Numbered([], n) == [];
    }
  }

  // ---------------------------------------------------------------------
  // Balance: the events of a tree leave the pending depth unchanged.

  lemma {:induction false} TreeScan(t: NavTree, n: nat, rest: seq<NavEvent>, depth: nat)
    ensures Scan(Events(t, n) + rest, depth) == Scan(rest, depth)
    decreases t, 1
  {
    var inner := EventsForest(t.children, n + 1);
    var s := Events(t, n) + rest;
    assert s == [Open(t.uri, n)] + (inner + ([Close] + rest));
    assert s[1..] == inner + ([Close] + rest);
    ForestScan(t.children, n + 1, [Close] + rest, depth + 1);
    assert ([Close] + rest)[1..] == rest;
  }

  lemma {:induction false} ForestScan(ts: seq<NavTree>, n: nat, rest: seq<NavEvent>, depth: nat)
    ensures Scan(EventsForest(ts, n) + rest, depth) == Scan(rest, depth)
    decreases ts, 0
  {
    if ts != [] {
      var e := Events(ts[0], n);
      var f := EventsForest(ts[1..], n + Size(ts[0]));
      assert EventsForest(ts, n) + rest == e + (f + rest);
      TreeScan(ts[0], n, f + rest, depth);
      ForestScan(ts[1..], n + Size(ts[0]), rest, depth);
    } else {
      assert EventsForest(ts, n) + rest == rest;
    }
  }

  /** The events of any forest are balanced. */
  lemma ForestBalanced(ts: seq<NavTree>, n: nat)
    ensures Balanced(EventsForest(ts, n))
  {
    ForestScan(ts, n, [], 0);
    assert EventsForest(ts, n) + [] == EventsForest(ts, n);
  }

  // ---------------------------------------------------------------------
  // Serialisation

  function RenderEvent(e: NavEvent): seq<string> {
    match e
    case Open(u, n) => GenNavPoint(u, n)
    case Close => ["</navPoint>"]
  }

  function Render(es: seq<NavEvent>): seq<string> {
    if es == [] then [] else RenderEvent(es[0]) + Render(es[1..])
  }

  lemma {:induction false} RenderAppend(a: seq<NavEvent>, b: seq<NavEvent>)
    ensures Render(a + b) == Render(a) + Render(b)
  {
    if a != [] {
      assert (a + b)[1..] == a[1..] + b;
      assert (a + b)[0] == a[0];
      RenderAppend(a[1..], b);
    } else {
      assert a + b == b;
    }
  }
}

=== FILE: ncx.dfy ===
/** prep_ncx: the single traversal that numbers the pages, appends them to
    the page list and writes the NCX navigation map.  The program keeps the
    page list and the first part in globals; here they are the State passed
    in and handed back. */
module Ncx {
  import opened Results
  import opened Text
  import opened Pages
  import opened Books
  import opened NavMap
  import opened Seqs

  /** The page list built so far and the first part seen, if any. */
  datatype State = State(uriList: seq<Uri>, firstPage: Option<Uri>)

  /** The state before any traversal. */
  const Initial := State([], None)

  function Leaf(u: Uri): NavTree {
    NavTree(u, [])
  }

  function Leaves(us: seq<Uri>): seq<NavTree> {
    seq(|us|, k requires 0 <= k < |us| => Leaf(us[k]))
  }

  /** A part with its chapters nested inside it. */
  function PartTree(p: PartNode): NavTree {
    NavTree(PartUri(p), Leaves(ChapterUris(p.chapters)))
  }

  function PartTrees(ps: seq<PartNode>): seq<NavTree> {
    seq(|ps|, k requires 0 <= k < |ps| => PartTree(ps[k]))
  }

  /** The navigation tree of a book: front pages, parts holding their
      chapters, back pages. */
  function BookForest(b: Book): seq<NavTree> {
    Leaves(PageUris(b.front)) + PartTrees(b.parts) + Leaves(PageUris(b.back))
  }

  /** The fixed NCX preamble with the book's identifier, title and creator. */
  function NcxHead(b: Book): seq<string> {
    [ "<ncx xmlns=\"http://www.daisy.org/z3986/2005/ncx/\" version=\"2005-1\">",
      "<head>",
      "<meta name=\"dtb:uid\" content=\"" + b.identifier + "\"/>",
      "<meta name=\"epub-creator\" content=\"Muted Horn v0.23\"/>",
      "<!-- mortuus litteras buxum -->",
      "<meta name=\"dtb:depth\" content=\"2\"/>",
      "<meta name=\"dtb:totalPageCount\" content=\"0\"/>",
      "<meta name=\"dtb:maxPageNumber\" content=\"0\"/>",
      "</head>",
      "<docTitle><text>" + b.title + "</text></docTitle>",
      "<docAuthor><text>" + b.creator + "</text></docAuthor>" ]
  }

  /** The head carries the book's identifier, title and creator, each
      between the fixed text around it. */
  lemma NcxHeadReadBack(b: Book)
    ensures var r := NcxHead(b);
      && |r| == 11
      && Between(r[2], "<meta name=\"dtb:uid\" content=\"", "\"/>") == Some(b.identifier)
      && Between(r[9], "<docTitle><text>", "</text></docTitle>") == Some(b.title)
      && Between(r[10], "<docAuthor><text>", "</text></docAuthor>") == Some(b.creator)
  {
    BetweenRoundTrip("<meta name=\"dtb:uid\" content=\"", b.identifier, "\"/>");
    BetweenRoundTrip("<docTitle><text>", b.title, "</text></docTitle>");
    BetweenRoundTrip("<docAuthor><text>", b.creator, "</text></docAuthor>");
  }

  /** The navigation document as the serialisation of the book's tree,
      numbered from 1. */
  function NcxDocument(b: Book): seq<string> {
    NcxHead(b) + ["<navMap>"] + Render(EventsForest(BookForest(b), 1)) + ["</navMap>", "</ncx>"]
  }

  // ---------------------------------------------------------------------
  // Helper facts about leaves and parts

  lemma LeafFacts(u: Uri, n: nat)
    ensures Size(Leaf(u)) == 1
    ensures Preorder(Leaf(u)) == [u]
    ensures Events(Leaf(u), n) == [Open(u, n), Close]
  {
    assert EventsForest([], n + 1) == [];
    assert PreorderForest([]) == [];
  }

  lemma {:induction false} LeavesSize(us: seq<Uri>)
    ensures SizeForest(Leaves(us)) == |us|
    ensures PreorderForest(Leaves(us)) == us
  {
    if us != [] {
      assert Leaves(us)[1..] == Leaves(us[1..]);
      assert Leaves(us)[0] == Leaf(us[0]);
      LeavesSize(us[1..]);
      LeafFacts(us[0], 0);
      assert us == [us[0]] + us[1..];
    } else {
      assert Leaves(us) == [];
    }
  }

  lemma LeafStep(us: seq<Uri>, i: nat, n: nat)
    requires i < |us|
    ensures Render(EventsForest(Leaves(us[..i + 1]), n))
         == Render(EventsForest(Leaves(us[..i]), n)) + (GenNavPoint(us[i], n + i) + ["</navPoint>"])
  {
    var u := us[i];
    assert Leaves(us[..i + 1]) == Leaves(us[..i]) + [Leaf(u)];
    ForestAppend(Leaves(us[..i]), [Leaf(u)], n);
    LeavesSize(us[..i]);
    assert [Leaf(u)][1..] == [];
    LeafFacts(u, n + i);
    assert EventsForest([Leaf(u)], n + i) == Events(Leaf(u), n + i) + EventsForest([], n + i + 1);
    assert EventsForest([], n + i + 1) == [];
    assert EventsForest([Leaf(u)], n + i) == [Open(u, n + i), Close];
    assert EventsForest(Leaves(us[..i + 1]), n)
        == EventsForest(Leaves(us[..i]), n) + [Open(u, n + i), Close];
    RenderAppend(EventsForest(Leaves(us[..i]), n), [Open(u, n + i), Close]);
    assert [Open(u, n + i), Close][1..] == [Close];
    assert [Close][1..] == [];
    assert Render([Close]) == ["</navPoint>"] + Render([]);
    assert Render([Open(u, n + i), Close]) == GenNavPoint(u, n + i) + ["</navPoint>"];
  }

  lemma PartStep(ps: seq<PartNode>, i: nat, n: nat)
    requires i < |ps|
    ensures var before := PartTrees(ps[..i]);
      && EventsForest(PartTrees(ps[..i + 1]), n)
         == EventsForest(before, n) + Events(PartTree(ps[i]), n + SizeForest(before))
      && SizeForest(PartTrees(ps[..i + 1])) == SizeForest(before) + Size(PartTree(ps[i]))
  {
    var before := PartTrees(ps[..i]);
    assert PartTrees(ps[..i + 1]) == before + [PartTree(ps[i])];
    ForestAppend(before, [PartTree(ps[i])], n);
    assert [PartTree(ps[i])][1..] == [];
    assert EventsForest([PartTree(ps[i])], n + SizeForest(before))
        == Events(PartTree(ps[i]), n + SizeForest(before)) + [];
  }

  lemma PartsOrderStep(ps: seq<PartNode>, i: nat)
    requires i < |ps|
    ensures PartsOrder(ps[..i + 1]) == PartsOrder(ps[..i]) + PartBlock(ps[i])
  {
    assert ps[..i + 1] == ps[..i] + [ps[i]];
    PartsOrderAppend(ps[..i], [ps[i]]);
    assert [ps[i]][1..] == [];
  }

  /** Two appended runs of output make one run over both event lists. */
  lemma RenderChain(xml0: seq<string>, xml1: seq<string>, xml: seq<string>, a: seq<NavEvent>, b: seq<NavEvent>, c: seq<NavEvent>)
    requires xml1 == xml0 + Render(a)
    requires xml == xml1 + Render(b)
    requires c == a + b
    ensures xml == xml0 + Render(c)
  {
    RenderAppend(a, b);
    Chain(xml0, xml1, xml, Render(a), Render(b), Render(c));
  }

  lemma PartTreeEvents(p: PartNode, n: nat)
    ensures Render(Events(PartTree(p), n))
         == GenNavPoint(PartUri(p), n) + Render(EventsForest(Leaves(ChapterUris(p.chapters)), n + 1)) + ["</navPoint>"]
    ensures Size(PartTree(p)) == 1 + |p.chapters|
  {
    var inner := EventsForest(Leaves(ChapterUris(p.chapters)), n + 1);
    RenderAppend([Open(PartUri(p), n)], inner);
    RenderAppend([Open(PartUri(p), n)] + inner, [Close]);
    assert [Open(PartUri(p), n)][1..] == [];
    assert [Close][1..] == [];
    LeavesSize(ChapterUris(p.chapters));
  }

  /** The book's events: the front pages from 1, the parts after them,
      the back pages after the parts. */
  lemma BookEvents(b: Book)
    ensures var front := PageUris(b.front);
      EventsForest(BookForest(b), 1)
      == EventsForest(Leaves(front), 1)
       + EventsForest(PartTrees(b.parts), 1 + |front|)
       + EventsForest(Leaves(PageUris(b.back)), 1 + |front| + SizeForest(PartTrees(b.parts)))
  {
    var lead := Leaves(PageUris(b.front));
    var parts := PartTrees(b.parts);
    LeadEvents(b);
    EventsAppend(lead + parts, Leaves(PageUris(b.back)), 1);
  }

  lemma LeadEvents(b: Book)
    ensures var lead := Leaves(PageUris(b.front));
      var parts := PartTrees(b.parts);
      && EventsForest(lead + parts, 1) == EventsForest(lead, 1) + EventsForest(parts, 1 + |b.front|)
      && SizeForest(lead + parts) == |b.front| + SizeForest(parts)
  {
    var lead := Leaves(PageUris(b.front));
    var parts := PartTrees(b.parts);
    LeavesSize(PageUris(b.front));
    EventsAppend(lead, parts, 1);
    SizeAppend(lead, parts);
  }

  // ---------------------------------------------------------------------
  // The traversal

  /** Writes one self-closed navPoint per page, numbering from `order0`,
      and appends the pages to the list (the front, chapter and back loops). */
  method EmitLeaves(us: seq<Uri>, xml0: seq<string>, list0: seq<Uri>, order0: nat)
    returns (xml: seq<string>, list: seq<Uri>, order: nat)
    ensures xml == xml0 + Render(EventsForest(Leaves(us), order0))
    ensures list == list0 + us
    ensures order == order0 + |us|
  {
    xml, list, order := xml0, list0, order0;
    var i := 0;
    while i < |us|
      invariant 0 <= i <= |us|
      invariant xml == xml0 + Render(EventsForest(Leaves(us[..i]), order0))
      invariant list == list0 + us[..i]
      invariant order == order0 + i
    {
      var u := us[i];
      ghost var xmlBefore := xml;
      xml := xml + GenNavPoint(u, order);
      list := list + [u];
      order := order + 1;
      xml := xml + ["</navPoint>"];
      LeafStep(us, i, order0);
      Chain(xml0, xmlBefore, xml, Render(EventsForest(Leaves(us[..i]), order0)),
            GenNavPoint(u, order0 + i) + ["</navPoint>"], Render(EventsForest(Leaves(us[..i + 1]), order0)));
      assert us[..i + 1] == us[..i] + [u];
      i := i + 1;
    }
    assert us[..i] == us;
  }

  /** One part: its navPoint stays open around its chapters' navPoints;
      the first part seen becomes the first page unless one is set. */
  method EmitPart(p: PartNode, xml0: seq<string>, list0: seq<Uri>, first0: Option<Uri>, order0: nat)
    returns (xml: seq<string>, list: seq<Uri>, first: Option<Uri>, order: nat)
    ensures xml == xml0 + Render(Events(PartTree(p), order0))
    ensures list == list0 + PartBlock(p)
    ensures first == (if first0.Some? then first0 else Some(PartUri(p)))
    ensures order == order0 + Size(PartTree(p))
  {
    var u := PartUri(p);
    ghost var open := GenNavPoint(u, order0);
    ghost var inner := Render(EventsForest(Leaves(ChapterUris(p.chapters)), order0 + 1));
    xml := xml0 + GenNavPoint(u, order0);
    list := list0 + [u];
    order := order0 + 1;
    first := first0;
    if first.None? {
      first := Some(u);
    }
    ghost var xmlOpen, listOpen := xml, list;
    xml, list, order := EmitLeaves(ChapterUris(p.chapters), xml, list, order);
    ghost var xmlInner := xml;
    xml := xml + ["</navPoint>"];
    PartTreeEvents(p, order0);
    Chain(xml0, xmlOpen, xmlInner, open, inner, open + inner);
    Chain(xml0, xmlInner, xml, open + inner, ["</navPoint>"], open + inner + ["</navPoint>"]);
    Chain(list0, listOpen, list, [u], ChapterUris(p.chapters), PartBlock(p));
  }

  /** The first page after a run over some parts: kept if already set,
      otherwise the first of those parts, if any. */
  function FirstAfter(first: Option<Uri>, ps: seq<PartNode>): Option<Uri> {
    if first.Some? then first else if |ps| > 0 then Some(PartUri(ps[0])) else None
  }

  /** One turn of the parts loop, stated over the parts done so far. */
  method EmitNextPart(ps: seq<PartNode>, i: nat, xml0: seq<string>, list0: seq<Uri>, first0: Option<Uri>, order0: nat,
                      xml1: seq<string>, list1: seq<Uri>, first1: Option<Uri>, order1: nat)
    returns (xml: seq<string>, list: seq<Uri>, first: Option<Uri>, order: nat)
    requires i < |ps|
    requires xml1 == xml0 + Render(EventsForest(PartTrees(ps[..i]), order0))
    requires order1 == order0 + SizeForest(PartTrees(ps[..i]))
    requires list1 == list0 + PartsOrder(ps[..i])
    requires first1 == FirstAfter(first0, ps[..i])
    ensures xml == xml0 + Render(EventsForest(PartTrees(ps[..i + 1]), order0))
    ensures order == order0 + SizeForest(PartTrees(ps[..i + 1]))
    ensures list == list0 + PartsOrder(ps[..i + 1])
    ensures first == FirstAfter(first0, ps[..i + 1])
  {
    ghost var before := EventsForest(PartTrees(ps[..i]), order0);
    ghost var ev := Events(PartTree(ps[i]), order1);
    xml, list, first, order := EmitPart(ps[i], xml1, list1, first1, order1);
    PartStep(ps, i, order0);
    RenderChain(xml0, xml1, xml, before, ev, EventsForest(PartTrees(ps[..i + 1]), order0));
    assert order == order0 + SizeForest(PartTrees(ps[..i + 1])) by {
      PartStep(ps, i, order0);
    }
    PartsOrderStep(ps, i);
    Chain(list0, list1, list, PartsOrder(ps[..i]), PartBlock(ps[i]), PartsOrder(ps[..i + 1]));
    assert first == FirstAfter(first0, ps[..i + 1]) by {
      if i > 0 {
        assert ps[..i][0] == ps[0];
      }
      assert ps[..i + 1][0] == ps[0];
    }
  }

  /** The parts loop: each part in turn, numbering on from `order0`. */
  method EmitParts(ps: seq<PartNode>, xml0: seq<string>, list0: seq<Uri>, first0: Option<Uri>, order0: nat)
    returns (xml: seq<string>, list: seq<Uri>, first: Option<Uri>, order: nat)
    ensures xml == xml0 + Render(EventsForest(PartTrees(ps), order0))
    ensures list == list0 + PartsOrder(ps)
    ensures first == FirstAfter(first0, ps)
    ensures order == order0 + SizeForest(PartTrees(ps))
  {
    xml, list, first, order := xml0, list0, first0, order0;
    assert PartTrees(ps[..0]) == [];
    assert PartsOrder(ps[..0]) == [];
    var i := 0;
    while i < |ps|
      invariant 0 <= i <= |ps|
      invariant xml == xml0 + Render(EventsForest(PartTrees(ps[..i]), order0))
      invariant order == order0 + SizeForest(PartTrees(ps[..i]))
      invariant list == list0 + PartsOrder(ps[..i])
      invariant first == FirstAfter(first0, ps[..i])
    {
      xml, list, first, order := EmitNextPart(ps, i, xml0, list0, first0, order0, xml, list, first, order);
      i := i + 1;
    }
    assert ps[..i] == ps;
  }

  /** prep_ncx: appends every page of the book to the list in document
      order, numbers them 1..N in the navigation map with chapters nested
      in their part, and records the first part if none was recorded. */
  method PrepNcx(b: Book, st: State) returns (xml: seq<string>, st': State)
    ensures xml == NcxDocument(b)
    ensures st'.uriList == st.uriList + DocumentOrder(b)
    ensures st'.firstPage ==
      if st.firstPage.Some? then st.firstPage
      else if |b.parts| > 0 then Some(PartUri(b.parts[0]))
      else None
  {
    var head := NcxHead(b) + ["<navMap>"];
    var list := st.uriList;
    var first := st.firstPage;
    var order: nat := 1;
    ghost var e1 := EventsForest(Leaves(PageUris(b.front)), 1);
    xml, list, order := EmitLeaves(PageUris(b.front), head, list, order);
    ghost var xml1, list1 := xml, list;
    ghost var e2 := EventsForest(PartTrees(b.parts), order);
    xml, list, first, order := EmitParts(b.parts, xml, list, first, order);
    ghost var xml2, list2 := xml, list;
    ghost var e3 := EventsForest(Leaves(PageUris(b.back)), order);
    xml, list, order := EmitLeaves(PageUris(b.back), xml, list, order);
    BookEvents(b);
    RenderChain(head, xml1, xml2, e1, e2, e1 + e2);
    RenderChain(head, xml2, xml, e1 + e2, e3, EventsForest(BookForest(b), 1));
    Chain(st.uriList, list1, list2, PageUris(b.front), PartsOrder(b.parts), PageUris(b.front) + PartsOrder(b.parts));
    Chain(st.uriList, list2, list, PageUris(b.front) + PartsOrder(b.parts), PageUris(b.back), DocumentOrder(b));
    xml := xml + ["</navMap>", "</ncx>"];
    st' := State(list, first);
  }

  // ---------------------------------------------------------------------
  // What the navigation map promises

  /** The tree's preorder is the document order. */
  lemma BookForestPreorder(b: Book)
    ensures PreorderForest(BookForest(b)) == DocumentOrder(b)
  {
    LeavesSize(PageUris(b.front));
    LeavesSize(PageUris(b.back));
    PartTreesPreorder(b.parts);
    ForestAppend(Leaves(PageUris(b.front)), PartTrees(b.parts), 1);
    ForestAppend(Leaves(PageUris(b.front)) + PartTrees(b.parts), Leaves(PageUris(b.back)), 1);
  }

  lemma {:induction false} PartTreesPreorder(ps: seq<PartNode>)
    ensures PreorderForest(PartTrees(ps)) == PartsOrder(ps)
  {
    if ps != [] {
      PartTreesPreorder(ps[1..]);
      assert PartTrees(ps)[1..] == PartTrees(ps[1..]);
      assert PartTrees(ps)[0] == PartTree(ps[0]);
      LeavesSize(ChapterUris(ps[0].chapters));
    } else {
      assert PartTrees(ps) == [];
    }
  }

  /** Play orders are exactly 1..N: the k-th page of the document order,
      and no other, opens with play order k + 1. */
  lemma NcxPlayOrders(b: Book)
    ensures Opened(EventsForest(BookForest(b), 1)) == Numbered(DocumentOrder(b), 1)
    ensures |Opened(EventsForest(BookForest(b), 1))| == EntryCount(b)
  {
    ForestNumbering(BookForest(b), 1);
    BookForestPreorder(b);
    DocumentOrderLayout(b);
  }

  /** Every navPoint opened in the map is closed exactly once. */
  lemma NcxBalanced(b: Book)
    ensures Balanced(EventsForest(BookForest(b), 1))
  {
    ForestBalanced(BookForest(b), 1);
  }

  /** A part's navPoint encloses its chapters: it opens, each chapter opens
      and closes in turn with the next play order, and only then does the
      part close. */
  lemma PartNesting(p: PartNode, n: nat)
    ensures var e := Events(PartTree(p), n);
      && |e| == 2 * |p.chapters| + 2
      && e[0] == Open(PartUri(p), n)
      && e[|e| - 1] == Close
      && forall j :: 0 <= j < |p.chapters| ==>
           e[2 * j + 1] == Open(ChapterUri(p.chapters[j]), n + 1 + j) && e[2 * j + 2] == Close
  {
    var cs := ChapterUris(p.chapters);
    var inner := EventsForest(Leaves(cs), n + 1);
    LeavesPairs(cs, n + 1);
    var e := Events(PartTree(p), n);
    assert e == [Open(PartUri(p), n)] + inner + [Close];
    forall j | 0 <= j < |p.chapters|
      ensures e[2 * j + 1] == Open(ChapterUri(p.chapters[j]), n + 1 + j) && e[2 * j + 2] == Close
    {
      assert e[2 * j + 1] == inner[2 * j];
      assert e[2 * j + 2] == inner[2 * j + 1];
    }
  }

  /** Leaves open and close in turn. */
  lemma {:induction false} LeavesPairs(us: seq<Uri>, n: nat)
    ensures var e := EventsForest(Leaves(us), n);
      && |e| == 2 * |us|
      && forall j :: 0 <= j < |us| ==> e[2 * j] == Open(us[j], n + j) && e[2 * j + 1] == Close
  {
    if us != [] {
      LeavesPairs(us[1..], n + 1);
      assert Leaves(us)[1..] == Leaves(us[1..]);
      assert Leaves(us)[0] == Leaf(us[0]);
      LeafFacts(us[0], n);
      var e := EventsForest(Leaves(us), n);
      var rest := EventsForest(Leaves(us[1..]), n + 1);
      assert e == [Open(us[0], n), Close] + rest;
      forall j | 0 <= j < |us|
        ensures e[2 * j] == Open(us[j], n + j) && e[2 * j + 1] == Close
      {
        if j > 0 {
          assert e[2 * j] == rest[2 * (j - 1)];
          assert e[2 * j + 1] == rest[2 * (j - 1) + 1];
          assert us[j] == us[1..][j - 1];
        }
      }
    } else {
      assert Leaves(us) == [];
    }
  }
}

=== FILE: opf.dfy ===
/** prep_opf: the OPF package descriptor (metadata, manifest, spine and
    guide), built from the page list and the first part that prep_ncx
    left behind. */
module Opf {
  import opened Results
  import opened Text
  import opened Mime
  import opened Markup
  import opened Pages
  import opened Books
  import opened Ncx
  import opened Seqs

  const XhtmlType := "application/xhtml+xml"

  const PackageOpen := "<package xmlns=\"http://www.idpf.org/2007/opf\" unique-identifier=\"BookId\" version=\"2.0\">"

  /** The three items every manifest starts with: stylesheet, NCX, and the
      table-of-contents page. */
  const FixedItems: seq<Item> := [
    Item("stylesheet", "epub.css", "text/css"),
    Item("ncx", "toc.ncx", "application/x-dtbncx+xml"),
    Item("toc", TocFile, XhtmlType)]

  // ---------------------------------------------------------------------
  // Manifest

  /** A page's image, if it has one, has an extension the table knows. */
  predicate ImageOk(u: Uri) {
    !HasImage(u) || KnownImage(u.img.value)
  }

  predicate ImagesOk(us: seq<Uri>) {
    forall k :: 0 <= k < |us| ==> ImageOk(us[k])
  }

  predicate AssetsOk(srcs: seq<string>) {
    forall k :: 0 <= k < |srcs| ==> KnownImage(srcs[k])
  }

  lemma ImagesOkCons(us: seq<Uri>)
    requires us != []
    ensures ImagesOk(us) <==> ImageOk(us[0]) && ImagesOk(us[1..])
  {
    if ImageOk(us[0]) && ImagesOk(us[1..]) {
      forall k | 0 <= k < |us|
        ensures ImageOk(us[k])
      {
        if k > 0 {
          assert us[k] == us[1..][k - 1];
        }
      }
    }
  }

  /** The items of every page on the list, in list order, stopping at the
      first image whose extension is not in the table. */
  function UriItems(us: seq<Uri>): (r: Result<seq<Item>>)
    ensures r.Ok? <==> ImagesOk(us)
    ensures r.Err? ==> r.error.UnknownExtension?
    ensures r.Ok? ==> |r.value| >= |us|
  {
    if us == [] then Ok([])
    else
      ImagesOkCons(us);
      var head :- GenOpfItem(us[0]);
      var tail :- UriItems(us[1..]);
      Ok(head + tail)
  }

  /** Page `k` is the first whose image has an unknown extension. */
  predicate FirstBadImage(us: seq<Uri>, k: nat) {
    k < |us| && ImagesOk(us[..k]) && !ImageOk(us[k])
  }

  /** The error names the first page whose image has an unknown extension. */
  lemma {:induction false} UriItemsError(us: seq<Uri>)
    requires !ImagesOk(us)
    ensures UriItems(us).Err?
    ensures exists k: nat :: FirstBadImage(us, k) && UriItems(us).error == UnknownExtension(Extension(us[k].img.value))
  {
    ImagesOkCons(us);
    if !ImageOk(us[0]) {
      assert ImagesOk(us[..0]);
      assert FirstBadImage(us, 0);
    } else {
      var tail := us[1..];
      assert UriItems(us).error == UriItems(tail).error;
      UriItemsError(tail);
      var k: nat :| FirstBadImage(tail, k) && UriItems(tail).error == UnknownExtension(Extension(tail[k].img.value));
      FirstBadStep(us, k);
      assert us[k + 1] == tail[k];
    }
  }

  lemma FirstBadStep(us: seq<Uri>, k: nat)
    requires us != [] && ImageOk(us[0]) && FirstBadImage(us[1..], k)
    ensures FirstBadImage(us, k + 1)
  {
    assert us[..k + 1][1..] == us[1..][..k];
    ImagesOkCons(us[..k + 1]);
    assert us[k + 1] == us[1..][k];
  }

  /** The items of a concatenation are those of each half, in order; an
      error in the first half is the one reported. */
  lemma {:induction false} UriItemsAppend(a: seq<Uri>, b: seq<Uri>)
    ensures UriItems(a + b) == if UriItems(a).Err? then UriItems(a)
                               else if UriItems(b).Err? then UriItems(b)
                               else Ok(UriItems(a).value + UriItems(b).value)
  {
    if a == [] {
      assert a + b == b;
      if UriItems(b).Ok? {
        assert UriItems(a).value + UriItems(b).value == UriItems(b).value;
      }
    } else {
      var ab := a + b;
      assert ab[1..] == a[1..] + b && ab[0] == a[0];
      UriItemsAppend(a[1..], b);
      UriItemsCons(ab);
      UriItemsCons(a);
      var head := GenOpfItem(a[0]);
      var rest := UriItems(a[1..]);
      if head.Ok? && rest.Ok? && UriItems(b).Ok? {
        Assoc(head.value, rest.value, UriItems(b).value);
      }
    }
  }

  /** One step of the page items: the first page's items, then the rest. */
  lemma UriItemsCons(us: seq<Uri>)
    requires us != []
    ensures UriItems(us) == if GenOpfItem(us[0]).Err? then Err(GenOpfItem(us[0]).error)
                            else if UriItems(us[1..]).Err? then Err(UriItems(us[1..]).error)
                            else Ok(GenOpfItem(us[0]).value + UriItems(us[1..]).value)
  {
  }

  /** A single page contributes the items gen_opf_item gives it. */
  lemma UriItemsSingle(u: Uri)
    ensures UriItems([u]) == GenOpfItem(u)
  {
    assert [u][1..] == [];
    if GenOpfItem(u).Ok? {
      assert GenOpfItem(u).value + [] == GenOpfItem(u).value;
    }
  }

  /** The XHTML items of a manifest, in order. */
  function XhtmlItems(items: seq<Item>): (r: seq<Item>)
    ensures |r| <= |items|
  {
    if items == [] then [] else XhtmlItem(items[0]) + XhtmlItems(items[1..])
  }

  function XhtmlItem(it: Item): seq<Item> {
    if it.mediaType == XhtmlType then [it] else []
  }

  lemma {:induction false} XhtmlAppend(a: seq<Item>, b: seq<Item>)
    ensures XhtmlItems(a + b) == XhtmlItems(a) + XhtmlItems(b)
  {
    if a == [] {
      assert a + b == b;
    } else {
      assert (a + b)[1..] == a[1..] + b;
      assert (a + b)[0] == a[0];
      XhtmlAppend(a[1..], b);
      assert XhtmlItems(a + b) == XhtmlItem(a[0]) + (XhtmlItems(a[1..]) + XhtmlItems(b));
    }
  }

  /** The page items of a list of pages. */
  function PageItems(us: seq<Uri>): seq<Item> {
    seq(|us|, k requires 0 <= k < |us| => PageItem(us[k]))
  }

  lemma PageItemsCons(us: seq<Uri>)
    requires us != []
    ensures PageItems(us) == [PageItem(us[0])] + PageItems(us[1..])
  {
  }

  /** A page contributes exactly its own item to the XHTML items: an image
      item is typed image/png or image/jpeg. */
  lemma PageXhtml(u: Uri)
    requires GenOpfItem(u).Ok?
    ensures XhtmlItems(GenOpfItem(u).value) == [PageItem(u)]
  {
    var items := GenOpfItem(u).value;
    assert items[0].mediaType == XhtmlType;
    if HasImage(u) {
      assert items[1..][1..] == [];
      assert items[1].mediaType != XhtmlType;
      assert XhtmlItems(items[1..]) == [];
    } else {
      assert items[1..] == [];
    }
  }

  /** Filtering the page items back out of the manifest gives every page on
      the list, in list order. */
  lemma {:induction false} UriItemsPages(us: seq<Uri>)
    requires UriItems(us).Ok?
    ensures XhtmlItems(UriItems(us).value) == PageItems(us)
  {
    if us != [] {
      ImagesOkCons(us);
      var head := GenOpfItem(us[0]).value;
      var tail := UriItems(us[1..]).value;
      assert UriItems(us).value == head + tail;
      XhtmlAppend(head, tail);
      PageXhtml(us[0]);
      UriItemsPages(us[1..]);
      PageItemsCons(us);
    }
  }

  /** The manifest item of a page's image. */
  function ImageItem(u: Uri): Item
    requires HasImage(u) && KnownImage(u.img.value)
  {
    Item("img-" + u.id, "img/" + u.img.value, MimeTypes[Extension(u.img.value)])
  }

  lemma GenOpfImage(u: Uri)
    requires HasImage(u) && GenOpfItem(u).Ok?
    ensures GenOpfItem(u).value == [PageItem(u), ImageItem(u)]
  {
  }

  /** Every page with an image has the image's item in the manifest. */
  lemma {:induction false} UriItemsImages(us: seq<Uri>, u: Uri)
    requires UriItems(us).Ok?
    requires u in us && HasImage(u)
    ensures KnownImage(u.img.value) && ImageItem(u) in UriItems(us).value
  {
    ImagesOkCons(us);
    var head := GenOpfItem(us[0]).value;
    var tail := UriItems(us[1..]).value;
    assert UriItems(us).value == head + tail;
    if u == us[0] {
      GenOpfImage(u);
      assert head[1] in head;
    } else {
      assert u in us[1..];
      UriItemsImages(us[1..], u);
      InRight(ImageItem(u), head, tail);
    }
  }

  /** One <assets/img>: id from the part of the name before the first
      dot, type from the part after the last. */
  function AssetItem(src: string): (r: Result<Item>)
    ensures r.Ok? <==> KnownImage(src)
    ensures r.Err? ==> r.error == UnknownExtension(Extension(src))
    ensures r.Ok? ==> && r.value.id == "asset-" + Stem(src)
                      && r.value.href == "img/" + src
                      && r.value.mediaType == MimeTypes[Extension(src)]
  {
    var mime :- LookupMime(Extension(src));
    Ok(Item("asset-" + Stem(src), "img/" + src, mime))
  }

  /** The asset items in order, stopping at the first unknown extension. */
  function AssetItems(srcs: seq<string>): (r: Result<seq<Item>>)
    ensures r.Ok? <==> AssetsOk(srcs)
    ensures r.Err? ==> r.error.UnknownExtension?
    ensures r.Ok? ==> |r.value| == |srcs|
  {
    if srcs == [] then Ok([])
    else
      AssetsOkCons(srcs);
      var head :- AssetItem(srcs[0]);
      var tail :- AssetItems(srcs[1..]);
      Ok([head] + tail)
  }

  /** Asset `k` contributes item `k`. */
  lemma {:induction false} AssetItemsContents(srcs: seq<string>, k: nat)
    requires AssetItems(srcs).Ok? && k < |srcs|
    ensures AssetItem(srcs[k]) == Ok(AssetItems(srcs).value[k])
  {
    var tail := AssetItems(srcs[1..]);
    assert AssetItems(srcs).value == [AssetItem(srcs[0]).value] + tail.value;
    if k > 0 {
      AssetItemsContents(srcs[1..], k - 1);
      assert srcs[1..][k - 1] == srcs[k];
    }
  }

  lemma AssetsOkCons(srcs: seq<string>)
    requires srcs != []
    ensures AssetsOk(srcs) <==> KnownImage(srcs[0]) && AssetsOk(srcs[1..])
  {
    assert forall k :: 0 < k < |srcs| ==> srcs[k] == srcs[1..][k - 1];
  }

  /** Asset `k` is the first whose extension the table does not know. */
  predicate FirstBadAsset(srcs: seq<string>, k: nat) {
    k < |srcs| && AssetsOk(srcs[..k]) && !KnownImage(srcs[k])
  }

  /** The error names the extension of the first unknown asset. */
  lemma {:induction false} AssetItemsError(srcs: seq<string>)
    requires !AssetsOk(srcs)
    ensures AssetItems(srcs).Err?
    ensures exists k: nat :: FirstBadAsset(srcs, k) && AssetItems(srcs).error == UnknownExtension(Extension(srcs[k]))
  {
    AssetsOkCons(srcs);
    if !KnownImage(srcs[0]) {
      assert AssetsOk(srcs[..0]);
      assert FirstBadAsset(srcs, 0);
    } else {
      var tail := srcs[1..];
      assert AssetItems(srcs).error == AssetItems(tail).error;
      AssetItemsError(tail);
      var k: nat :| FirstBadAsset(tail, k) && AssetItems(tail).error == UnknownExtension(Extension(tail[k]));
      FirstBadAssetStep(srcs, k);
      assert srcs[k + 1] == tail[k];
    }
  }

  lemma FirstBadAssetStep(srcs: seq<string>, k: nat)
    requires srcs != [] && KnownImage(srcs[0]) && FirstBadAsset(srcs[1..], k)
    ensures FirstBadAsset(srcs, k + 1)
  {
    assert srcs[..k + 1][1..] == srcs[1..][..k];
    AssetsOkCons(srcs[..k + 1]);
    assert srcs[k + 1] == srcs[1..][k];
  }

  /** The manifest: fixed items, page items, asset items. */
  function Manifest(us: seq<Uri>, srcs: seq<string>): (r: Result<seq<Item>>)
    ensures r.Ok? <==> ImagesOk(us) && AssetsOk(srcs)
    ensures !ImagesOk(us) ==> r == Err(UriItems(us).error)
    ensures ImagesOk(us) && !AssetsOk(srcs) ==> r == Err(AssetItems(srcs).error)
    ensures r.Ok? ==> && |r.value| >= 3 + |srcs|
                      && r.value[..3] == FixedItems
                      && r.value[3..|r.value| - |srcs|] == UriItems(us).value
                      && r.value[|r.value| - |srcs|..] == AssetItems(srcs).value
  {
    var pages :- UriItems(us);
    var assets :- AssetItems(srcs);
    var items := FixedItems + pages + assets;
    Framed(items, FixedItems, pages, assets);
    Ok(items)
  }

  /** The XHTML items of the manifest are the table of contents followed
      by every page on the list, in order; assets are images. */
  lemma ManifestXhtml(us: seq<Uri>, srcs: seq<string>)
    requires Manifest(us, srcs).Ok?
    ensures XhtmlItems(Manifest(us, srcs).value) == [FixedItems[2]] + PageItems(us)
  {
    var pages := UriItems(us).value;
    var assets := AssetItems(srcs).value;
    UriItemsPages(us);
    forall k | 0 <= k < |assets|
      ensures assets[k].mediaType in MimeTypes.Values
    {
      AssetItemsContents(srcs, k);
    }
    AssetsNotXhtml(assets);
    XhtmlAppend(FixedItems, pages);
    XhtmlAppend(FixedItems + pages, assets);
    assert XhtmlItems(FixedItems) == [FixedItems[2]] by {
      var f := FixedItems;
      assert f[2..][1..] == [];
      assert XhtmlItems(f[2..]) == [f[2]];
      assert f[1..][1..] == f[2..];
      assert XhtmlItems(f[1..]) == [f[2]];
      assert f[0].mediaType != XhtmlType;
    }
  }

  lemma {:induction false} AssetsNotXhtml(items: seq<Item>)
    requires forall k :: 0 <= k < |items| ==> items[k].mediaType in MimeTypes.Values
    ensures XhtmlItems(items) == []
  {
    if items != [] {
      assert items[0].mediaType != XhtmlType;
      assert forall k :: 0 <= k < |items[1..]| ==> items[1..][k] == items[k + 1];
      AssetsNotXhtml(items[1..]);
    }
  }

  // ---------------------------------------------------------------------
  // Spine

  /** The spine entries of the list: the first is marked linear only when
      `linear` is set on entry, every later one is. */
  function SpineRefs(us: seq<Uri>, linear: bool): (r: seq<ItemRef>)
    ensures |r| == |us|
    ensures forall k :: 0 <= k < |us| ==> r[k].idref == IdRef(us[k]) && (r[k].linear <==> linear || k > 0)
  {
    if us == [] then []
    else
      assert forall k :: 0 < k < |us| ==> us[k] == us[1..][k - 1];
      [GenOpfItemref(us[0], linear)] + SpineRefs(us[1..], true)
  }

  /** The spine: the table of contents out of the reading order, then every
      page in list order, all linear but the first. */
  function Spine(us: seq<Uri>): (r: seq<ItemRef>)
    ensures |r| == |us| + 1 && r[0] == ItemRef("toc", false)
    ensures forall k :: 0 <= k < |us| ==> r[k + 1] == ItemRef(IdRef(us[k]), k > 0)
  {
    [ItemRef("toc", false)] + SpineRefs(us, false)
  }

  /** The spine walks the manifest's XHTML items in order: each spine entry
      refers to the XHTML item at the same position. */
  lemma SpineMatchesManifest(us: seq<Uri>, srcs: seq<string>)
    requires Manifest(us, srcs).Ok?
    ensures var pages := XhtmlItems(Manifest(us, srcs).value);
      && |Spine(us)| == |pages|
      && forall k :: 0 <= k < |pages| ==> Spine(us)[k].idref == pages[k].id
  {
    ManifestXhtml(us, srcs);
    var pages := XhtmlItems(Manifest(us, srcs).value);
    forall k | 0 <= k < |pages|
      ensures Spine(us)[k].idref == pages[k].id
    {
      if k > 0 {
        assert pages[k] == PageItems(us)[k - 1];
      }
    }
  }

  // ---------------------------------------------------------------------
  // Guide

  /** A guide entry for a page: its landmark type, its raw label as the
      title, and its file. */
  function GuideRef(u: Uri): Reference
    requires u.guide.Some?
  {
    Reference(u.guide.value, u.labelText, FileName(u))
  }

  /** The entry a page contributes to the guide: one when it carries a
      non-empty guide type, none otherwise. */
  function GuideEntry(u: Uri): seq<Reference> {
    if HasGuide(u) then [GuideRef(u)] else []
  }

  /** The guide entries of the pages that carry a non-empty guide type. */
  function GuideRefs(us: seq<Uri>): (r: seq<Reference>)
    ensures |r| <= |us|
  {
    if us == [] then [] else GuideEntry(us[0]) + GuideRefs(us[1..])
  }

  /** Every page with a guide type has its entry, and every entry comes
      from such a page. */
  lemma {:induction false} GuideRefsExact(us: seq<Uri>)
    ensures forall k :: 0 <= k < |us| && HasGuide(us[k]) ==> GuideRef(us[k]) in GuideRefs(us)
    ensures forall x :: x in GuideRefs(us) ==> exists k :: 0 <= k < |us| && HasGuide(us[k]) && x == GuideRef(us[k])
  {
    if us != [] {
      GuideRefsExact(us[1..]);
      assert forall k :: 0 < k < |us| ==> us[k] == us[1..][k - 1];
      forall x | x in GuideRefs(us)
        ensures exists k :: 0 <= k < |us| && HasGuide(us[k]) && x == GuideRef(us[k])
      {
        if x !in GuideRefs(us[1..]) {
          assert HasGuide(us[0]) && x == GuideRef(us[0]);
        } else {
          var j :| 0 <= j < |us[1..]| && HasGuide(us[1..][j]) && x == GuideRef(us[1..][j]);
          assert us[j + 1] == us[1..][j];
        }
      }
    }
  }

  /** The guide entries of a concatenation are those of each half, in
      order; with GuideRefsSingle this says the pages contribute exactly
      one entry each when they carry a guide type, in list order. */
  lemma {:induction false} GuideRefsAppend(a: seq<Uri>, b: seq<Uri>)
    ensures GuideRefs(a + b) == GuideRefs(a) + GuideRefs(b)
  {
    if a == [] {
      assert a + b == b;
    } else {
      assert (a + b)[1..] == a[1..] + b;
      assert (a + b)[0] == a[0];
      GuideRefsAppend(a[1..], b);
      assert GuideRefs(a + b) == GuideEntry(a[0]) + (GuideRefs(a[1..]) + GuideRefs(b));
    }
  }

  lemma GuideRefsSingle(u: Uri)
    ensures GuideRefs([u]) == if HasGuide(u) then [GuideRef(u)] else []
  {
    assert GuideRefs([u]) == GuideEntry(u) + GuideRefs([u][1..]);
    assert [u][1..] == [];
  }

  /** The guide: the first part as the beginning, the table of contents,
      then the pages' own guide entries; with no first part there is
      nothing to begin at. */
  function Guide(first: Option<Uri>, us: seq<Uri>): (r: Result<seq<Reference>>)
    ensures r.Ok? <==> first.Some?
    ensures r.Err? ==> r.error == NoFirstPage
    ensures r.Ok? ==> && |r.value| == 2 + |GuideRefs(us)|
                      && r.value[0] == Reference("text", "Beginning", FileName(first.value))
                      && r.value[1] == Reference("toc", "Table of Contents", TocFile)
                      && r.value[2..] == GuideRefs(us)
  {
    if first.None? then Err(NoFirstPage)
    else
      var refs := [Reference("text", "Beginning", FileName(first.value)),
                   Reference("toc", "Table of Contents", TocFile)];
      assert (refs + GuideRefs(us))[2..] == GuideRefs(us);
      Ok(refs + GuideRefs(us))
  }

  // ---------------------------------------------------------------------
  // The package

  datatype Package = Package(metadata: seq<string>, manifest: seq<Item>, spine: seq<ItemRef>, guide: seq<Reference>)

  /** Each serialised <metadata> element, stripped. */
  function StripAll(ms: seq<string>): (r: seq<string>)
    ensures |r| == |ms|
    ensures forall k :: 0 <= k < |r| ==> Trimmed(r[k])
    ensures forall k :: 0 <= k < |ms| ==> Padded(ms[k], r[k])
  {
    var r := seq(|ms|, k requires 0 <= k < |ms| => Strip(ms[k]));
    assert forall k :: 0 <= k < |ms| ==> Padded(ms[k], r[k]) by {
      forall k | 0 <= k < |ms| {
        StripPads(ms[k]);
      }
    }
    r
  }

  /** The package from the book and the state prep_ncx left: the manifest
      fails first, on an unknown image extension; then the guide, when no
      part was ever seen. */
  function BuildPackage(b: Book, st: State): (r: Result<Package>)
    ensures r.Ok? <==> ImagesOk(st.uriList) && AssetsOk(b.assets) && st.firstPage.Some?
    ensures r.Err? ==> (r.error == NoFirstPage <==> ImagesOk(st.uriList) && AssetsOk(b.assets))
    ensures r.Ok? ==> && r.value.metadata == StripAll(b.metadata)
                      && r.value.manifest == Manifest(st.uriList, b.assets).value
                      && r.value.spine == Spine(st.uriList)
                      && r.value.guide == Guide(st.firstPage, st.uriList).value
  {
    var manifest :- Manifest(st.uriList, b.assets);
    var guide :- Guide(st.firstPage, st.uriList);
    Ok(Package(StripAll(b.metadata), manifest, Spine(st.uriList), guide))
  }

  /** An element's opening line, its content lines, its closing line. */
  function Section(open: string, body: seq<string>, close: string): (r: seq<string>)
    ensures |r| == |body| + 2
  {
    [open] + body + [close]
  }

  function RenderPackage(p: Package): seq<string> {
    [PackageOpen] + p.metadata
    + Section("<manifest>", RenderItems(p.manifest), "</manifest>")
    + Section("<spine toc=\"ncx\">", RenderItemRefs(p.spine), "</spine>")
    + Section("<guide>", RenderReferences(p.guide), "</guide>")
    + ["</package>"]
  }

  /** The rendered package: the opening tag and the metadata lines as
      given, then the manifest section with one rendered item per manifest
      entry in order, then the spine and guide sections and the closing
      tag. */
  lemma RenderPackageLayout(p: Package)
    ensures var r := RenderPackage(p);
      var m := |p.metadata|;
      var n := |p.manifest|;
      && |r| == 8 + m + n + |p.spine| + |p.guide|
      && r[..1 + m] == [PackageOpen] + p.metadata
      && r[1 + m..3 + m + n] == Section("<manifest>", RenderItems(p.manifest), "</manifest>")
      && r[3 + m + n..5 + m + n + |p.spine|] == Section("<spine toc=\"ncx\">", RenderItemRefs(p.spine), "</spine>")
      && r[5 + m + n + |p.spine|..|r| - 1] == Section("<guide>", RenderReferences(p.guide), "</guide>")
      && r[|r| - 1] == "</package>"
  {
    var head := [PackageOpen] + p.metadata;
    var manifest := Section("<manifest>", RenderItems(p.manifest), "</manifest>");
    var spine := Section("<spine toc=\"ncx\">", RenderItemRefs(p.spine), "</spine>");
    var guide := Section("<guide>", RenderReferences(p.guide), "</guide>");
    var close := ["</package>"];
    var r := RenderPackage(p);
    assert r == head + manifest + spine + guide + close;
    Framed(r, head, manifest, spine + guide + close);
    Framed(r, head + manifest, spine, guide + close);
    Framed(r, head + manifest + spine, guide, close);
  }

  /** prep_opf: the package document, or the error that stops it. */
  function PrepOpf(b: Book, st: State): (r: Result<seq<string>>)
    ensures r.Ok? <==> ImagesOk(st.uriList) && AssetsOk(b.assets) && st.firstPage.Some?
    ensures r.Err? ==> (r.error == NoFirstPage <==> ImagesOk(st.uriList) && AssetsOk(b.assets))
    ensures r.Ok? ==> && |r.value| == 11 + |b.metadata| + |Manifest(st.uriList, b.assets).value|
                                           + |st.uriList| + |GuideRefs(st.uriList)|
                      && r.value[0] == PackageOpen && r.value[|r.value| - 1] == "</package>"
  {
    var p :- BuildPackage(b, st);
    RenderPackageLayout(p);
    Ok(RenderPackage(p))
  }
}

=== FILE: pages.dfy ===
/** The URI record: one navigable XHTML page of the book (front or back
    matter, a part, or a chapter) and the markup it contributes to the
    navigation map and the package descriptor. */
module Pages {
  import opened Results
  import opened Markup
  import opened Mime
  import opened Text

  /** The three page kinds the traversal creates. */
  datatype Kind = Misc | Part | Chapter

  function KindName(k: Kind): string {
    match k
    case Misc => "misc"
    case Part => "part"
    case Chapter => "chapter"
  }

  /** One page.  `level` drives the table-of-contents markup (0 for front
      and back matter, 1 for parts, 2 for chapters); `img` is a chapter's
      image file and `guide` a page's landmark type, both optional. */
  datatype Uri = Uri(kind: Kind, level: nat, id: string, labelText: string,
                     img: Option<string>, guide: Option<string>)

  /** The file name of the table-of-contents page. */
  const TocFile := "toc.xhtml"

  /** Reads an identifier back: a kind name and a dash, then the id. */
  function ParseIdRef(s: string): (r: Option<(Kind, string)>)
    ensures r.Some? ==> s == KindName(r.value.0) + "-" + r.value.1
  {
    if |s| >= 5 && s[..5] == "misc-" then Some((Misc, s[5..]))
    else if |s| >= 5 && s[..5] == "part-" then Some((Part, s[5..]))
    else if |s| >= 8 && s[..8] == "chapter-" then Some((Chapter, s[8..]))
    else None
  }

  /** Reads a file name back: an identifier followed by ".xhtml". */
  function ParseFileName(s: string): (r: Option<(Kind, string)>)
    ensures r.Some? ==> s == KindName(r.value.0) + "-" + r.value.1 + ".xhtml"
  {
    if |s| >= 6 && s[|s| - 6..] == ".xhtml" then
      assert s == s[..|s| - 6] + ".xhtml";
      ParseIdRef(s[..|s| - 6])
    else None
  }

  /** The identifier shared by the manifest item and the spine entry. */
  function IdRef(u: Uri): string {
    KindName(u.kind) + "-" + u.id
  }

  /** The kind and id can be read back from the identifier. */
  lemma IdRefReadBack(u: Uri)
    ensures ParseIdRef(IdRef(u)) == Some((u.kind, u.id))
  {
    var r := IdRef(u);
    var n := |KindName(u.kind)| + 1;
    assert r[..n] == KindName(u.kind) + "-" && r[n..] == u.id;
    assert r[0] == KindName(u.kind)[0];
  }

  /** The page's file name, also its navigation and guide target: the
      identifier with the XHTML extension. */
  function FileName(u: Uri): string {
    IdRef(u) + ".xhtml"
  }

  /** The identifier, and so kind and id, can be read back from the file
      name. */
  lemma FileNameReadBack(u: Uri)
    ensures var r := FileName(u);
      && |r| >= 6 && r[..|r| - 6] == IdRef(u)
      && ParseFileName(r) == Some((u.kind, u.id))
  {
    var r := FileName(u);
    assert r[|r| - 6..] == ".xhtml";
    assert r[..|r| - 6] == IdRef(u);
    IdRefReadBack(u);
  }

  /** The identifier determines kind and id. */
  lemma IdRefInjective(u: Uri, v: Uri)
    ensures IdRef(u) == IdRef(v) <==> u.kind == v.kind && u.id == v.id
  {
    IdRefReadBack(u);
    IdRefReadBack(v);
  }

  /** The file name determines kind and id. */
  lemma FileNameInjective(u: Uri, v: Uri)
    ensures FileName(u) == FileName(v) <==> u.kind == v.kind && u.id == v.id
  {
    FileNameReadBack(u);
    FileNameReadBack(v);
  }

  /** Python truthiness: an empty attribute counts as absent. */
  predicate HasImage(u: Uri) {
    u.img.Some? && u.img.value != ""
  }

  predicate HasGuide(u: Uri) {
    u.guide.Some? && u.guide.value != ""
  }

  const NavPointOpen := "<navPoint id=\"navpoint-"

  /** Reads the play order back from the decimal number that follows the
      navPoint's id prefix. */
  function ReadPlayOrder(line: string): Option<nat> {
    if |NavPointOpen| <= |line| && line[..|NavPointOpen|] == NavPointOpen then
      var d := DigitPrefix(line[|NavPointOpen|..]);
      if d == [] then None else Some(DigitsToNat(d))
    else None
  }

  /** The opening of an NCX <navPoint>: its id and play order, the raw
      label, and the page as content.  The closing tag is the caller's. */
  function GenNavPoint(u: Uri, playOrder: nat): seq<string> {
    var n := NatToString(playOrder);
    [ NavPointOpen + n + "\" playOrder=\"" + n + "\">",
      "<navLabel><text>" + u.labelText + "</text></navLabel>",
      "<content src=\"" + FileName(u) + "\"/>" ]
  }

  /** What a navPoint opening says, read back from its three lines: the
      play order from the id, the label as written (raw, not escaped), and
      kind and id from the content's file name. */
  lemma NavPointReadBack(u: Uri, playOrder: nat)
    ensures var r := GenNavPoint(u, playOrder);
      && |r| == 3
      && ReadPlayOrder(r[0]) == Some(playOrder)
      && Between(r[1], "<navLabel><text>", "</text></navLabel>") == Some(u.labelText)
      && Between(r[2], "<content src=\"", "\"/>") == Some(FileName(u))
      && ParseFileName(FileName(u)) == Some((u.kind, u.id))
  {
    var n := NatToString(playOrder);
    var rest := " playOrder=\"" + n + "\">";
    var line := GenNavPoint(u, playOrder)[0];
    assert line == NavPointOpen + (n + ['"'] + rest);
    assert line[|NavPointOpen|..] == n + ['"'] + rest;
    DigitPrefixOfNumeral(n, '"', rest);
    DigitsRoundTrip(playOrder);
    BetweenRoundTrip("<navLabel><text>", u.labelText, "</text></navLabel>");
    BetweenRoundTrip("<content src=\"", FileName(u), "\"/>");
    FileNameReadBack(u);
  }

  /** Distinct play orders give distinct navPoint ids. */
  lemma NavPointIdsDistinct(u: Uri, v: Uri, m: nat, n: nat)
    ensures GenNavPoint(u, m)[0] == GenNavPoint(v, n)[0] <==> m == n
  {
    NavPointReadBack(u, m);
    NavPointReadBack(v, n);
  }

  /** The page's own manifest item. */
  function PageItem(u: Uri): Item {
    Item(IdRef(u), FileName(u), "application/xhtml+xml")
  }

  /** URI.gen_opf_item: the page item, then, when an image is set, an item
      for the image typed by its last extension; an extension outside the
      MIME table is an error. */
  function GenOpfItem(u: Uri): (r: Result<seq<Item>>)
    ensures r.Ok? <==> !HasImage(u) || KnownImage(u.img.value)
    ensures r.Err? ==> r.error == UnknownExtension(Extension(u.img.value))
    ensures r.Ok? ==> |r.value| == (if HasImage(u) then 2 else 1) && r.value[0] == PageItem(u)
    ensures r.Ok? && HasImage(u) ==>
      && r.value[1].id == "img-" + u.id
      && r.value[1].href == "img/" + u.img.value
      && (r.value[1].mediaType == "image/png" <==> Extension(u.img.value) == "png")
      && (r.value[1].mediaType == "image/jpeg" <==> Extension(u.img.value) == "jpg")
  {
    if HasImage(u) then
      var mime :- LookupMime(Extension(u.img.value));
      Ok([PageItem(u), Item("img-" + u.id, "img/" + u.img.value, mime)])
    else
      Ok([PageItem(u)])
  }

  /** URI.gen_opf_itemref: the spine entry for the page. */
  function GenOpfItemref(u: Uri, linear: bool): ItemRef {
    ItemRef(IdRef(u), linear)
  }
}

=== FILE: results.dfy ===
/** Failure-compatible wrappers for the two ways the generator can abort. */
module Results {

  /** Why a run of the generator stops.  Both are exceptions in the program. */
  datatype Error =
    | UnknownExtension(ext: string)  // KeyError from the MIME table
    | NoFirstPage                    // attribute lookup on an unset first page

  datatype Option<+T> = None | Some(value: T)

  datatype Result<+T> = Ok(value: T) | Err(error: Error) {

    predicate IsFailure() {
      Err?
    }

    function PropagateFailure<U>(): Result<U>
      requires Err?
    {
      Err(error)
    }

    function Extract(): T
      requires Ok?
    {
      value
    }
  }
}

=== FILE: seqs.dfy ===
/** Small facts about sequence concatenation, stated over plain variables
    so that callers with large terms can use them cheaply. */
module Seqs {

  /** Appending `x` and then `y` appends `z` when `z` is `x + y`. */
  lemma Chain<T>(s0: seq<T>, s1: seq<T>, s: seq<T>, x: seq<T>, y: seq<T>, z: seq<T>)
    requires s1 == s0 + x
    requires s == s1 + y
    requires z == x + y
    ensures s == s0 + z
  {
  }

  /** A sequence built around `m` holds `m` between some prefix and suffix. */
  lemma Wrapped<T>(s: seq<T>, pre: seq<T>, m: seq<T>, post: seq<T>)
    requires s == pre + (m + post)
    ensures exists a, b :: s == a + m + b
  {
    assert s == pre + m + post;
  }

  lemma Assoc<T>(x: seq<T>, y: seq<T>, z: seq<T>)
    ensures x + (y + z) == x + y + z
  {
  }

  lemma FromEmpty<T>(none: seq<T>, s: seq<T>)
    requires none == []
    ensures none + s == s
  {
  }

  lemma InRight<T>(x: T, a: seq<T>, b: seq<T>)
    requires x in b
    ensures x in a + b
  {
  }

  /** A value that cannot contain the delimiter ends at its first
      occurrence: equal texts split the same way there. */
  lemma SplitAt<T>(x: seq<T>, y: seq<T>, c: T, s: seq<T>, t: seq<T>)
    requires c !in x && c !in y
    requires x + [c] + s == y + [c] + t
    ensures x == y && s == t
  {
    var l := x + [c] + s;
    assert l == y + [c] + t;
    assert l[|x|] == c && l[|y|] == c;
    assert forall i :: 0 <= i < |x| ==> l[i] == x[i] != c;
    assert forall i :: 0 <= i < |y| ==> l[i] == y[i] != c;
    assert x == l[..|x|] == y;
    assert s == l[|x| + 1..] == t;
  }

  /** The three parts of a framed sequence can be cut back out. */
  lemma Framed<T>(s: seq<T>, h: seq<T>, m: seq<T>, f: seq<T>)
    requires s == h + m + f
    ensures |s| == |h| + |m| + |f|
    ensures s[..|h|] == h && s[|s| - |f|..] == f && s[|h|..|s| - |f|] == m
  {
  }
}

=== FILE: text.dfy ===
/** String helpers the generator relies on: decimal rendering ("%d"),
    splitting on a separator (str.split) and whitespace stripping (str.strip). */
module Text {
  import opened Results

  // ---------------------------------------------------------------------
  // Decimal numerals

  predicate IsDigit(c: char) {
    '0' <= c <= '9'
  }

  predicate AllDigits(s: string) {
    forall i :: 0 <= i < |s| ==> IsDigit(s[i])
  }

  function DigitChar(d: nat): (c: char)
    requires d < 10
    ensures IsDigit(c)
  {
    "0123456789"[d]
  }

  function DigitValue(c: char): (d: nat)
    requires IsDigit(c)
    ensures d < 10
  {
    (c as int) - ('0' as int)
  }

  /** The canonical decimal numeral of `n`: digits only, no leading zero. */
  function NatToString(n: nat): (s: string)
    ensures |s| > 0 && AllDigits(s)
    ensures |s| > 1 ==> s[0] != '0'
    ensures n < 10 <==> |s| == 1
    decreases n
  {
    if n < 10 then [DigitChar(n)] else NatToString(n / 10) + [DigitChar(n % 10)]
  }

  /** Reads a decimal numeral back. */
  function DigitsToNat(s: string): nat
    requires AllDigits(s)
  {
    if s == [] then 0 else 10 * DigitsToNat(s[..|s| - 1]) + DigitValue(s[|s| - 1])
  }

  lemma {:induction false} DigitsRoundTrip(n: nat)
    ensures DigitsToNat(NatToString(n)) == n
    decreases n
  {
    if n >= 10 {
      var s := NatToString(n);
      DigitsRoundTrip(n / 10);
      assert s[..|s| - 1] == NatToString(n / 10);
      assert DigitValue(DigitChar(n % 10)) == n % 10;
    } else {
      assert DigitValue(DigitChar(n)) == n;
    }
  }

  /** Distinct numbers render as distinct numerals. */
  lemma NatToStringInjective(m: nat, n: nat)
    ensures NatToString(m) == NatToString(n) <==> m == n
  {
    DigitsRoundTrip(m);
    DigitsRoundTrip(n);
  }

  /** The longest prefix of `s` made of digits. */
  function DigitPrefix(s: string): (d: string)
    ensures AllDigits(d) && |d| <= |s| && d == s[..|d|]
    ensures |d| < |s| ==> !IsDigit(s[|d|])
  {
    if s != [] && IsDigit(s[0]) then [s[0]] + DigitPrefix(s[1..]) else []
  }

  /** A numeral followed by a non-digit is read back exactly. */
  lemma {:induction false} DigitPrefixOfNumeral(d: string, c: char, rest: string)
    requires AllDigits(d) && !IsDigit(c)
    ensures DigitPrefix(d + [c] + rest) == d
  {
    if d != [] {
      assert (d + [c] + rest)[1..] == d[1..] + [c] + rest;
      DigitPrefixOfNumeral(d[1..], c, rest);
    } else {
      assert (d + [c] + rest)[0] == c;
    }
  }

  // ---------------------------------------------------------------------
  // str.split(sep) and its inverse sep.join(parts)

  /** The pieces of `s` between occurrences of `sep`, as str.split does:
      at least one piece, and no piece contains `sep`. */
  function Split(s: string, sep: char): (parts: seq<string>)
    ensures |parts| > 0
    ensures forall i :: 0 <= i < |parts| ==> sep !in parts[i]
  {
    if s == [] then [[]]
    else
      var rest := Split(s[1..], sep);
      if s[0] == sep then [[]] + rest
      else [[s[0]] + rest[0]] + rest[1..]
  }

  /** The first piece is a prefix of `s` cut at the first separator, the last
      piece a suffix cut at the last one; a single piece is all of `s`. */
  lemma SplitEnds(s: string, sep: char)
    ensures var parts := Split(s, sep);
      && |parts[0]| <= |s| && s[..|parts[0]|] == parts[0]
      && (|parts| == 1 <==> parts[0] == s)
      && (|parts| > 1 ==> |parts[0]| < |s| && s[|parts[0]|] == sep)
    ensures var parts := Split(s, sep); var last := parts[|parts| - 1];
      && |last| <= |s| && s[|s| - |last|..] == last
      && (|parts| > 1 ==> |last| < |s| && s[|s| - |last| - 1] == sep)
  {
    SplitFirst(s, sep);
    SplitLast(s, sep);
  }

  lemma {:induction false} SplitFirst(s: string, sep: char)
    ensures var parts := Split(s, sep);
      && |parts[0]| <= |s| && s[..|parts[0]|] == parts[0]
      && (|parts| == 1 <==> parts[0] == s)
      && (|parts| > 1 ==> |parts[0]| < |s| && s[|parts[0]|] == sep)
  {
    if s != [] {
      SplitFirst(s[1..], sep);
      var rest := Split(s[1..], sep);
      var parts := Split(s, sep);
      if s[0] != sep {
        assert parts == [[s[0]] + rest[0]] + rest[1..];
        assert parts[0] == [s[0]] + rest[0];
        if |rest| == 1 {
          assert s == [s[0]] + s[1..];
        } else {
          assert |parts| > 1;
        }
      }
    }
  }

  lemma {:induction false} SplitLast(s: string, sep: char)
    ensures var parts := Split(s, sep); var last := parts[|parts| - 1];
      && |last| <= |s| && s[|s| - |last|..] == last
      && (|parts| > 1 ==> |last| < |s| && s[|s| - |last| - 1] == sep)
  {
    if s != [] {
      var t := s[1..];
      SplitLast(t, sep);
      SplitFirst(t, sep);
      var rest := Split(t, sep);
      var parts := Split(s, sep);
      var last := rest[|rest| - 1];
      if s[0] != sep && |rest| == 1 {
        assert parts == [[s[0]] + rest[0]];
        assert s == [s[0]] + t;
      } else {
        assert parts[|parts| - 1] == last && |parts| > 1;
        assert s[|s| - |last|..] == t[|t| - |last|..];
        if |rest| > 1 {
          assert s[|s| - |last| - 1] == t[|t| - |last| - 1];
        } else {
          assert last == t && s[0] == sep;
        }
      }
    }
  }

  function Join(parts: seq<string>, sep: char): string
    requires |parts| > 0
  {
    if |parts| == 1 then parts[0] else parts[0] + [sep] + Join(parts[1..], sep)
  }

  /** Joining the pieces with the separator gives the string back. */
  lemma {:induction false} JoinSplit(s: string, sep: char)
    ensures Join(Split(s, sep), sep) == s
  {
    if s != [] {
      var rest := Split(s[1..], sep);
      var parts := Split(s, sep);
      JoinSplit(s[1..], sep);
      if s[0] == sep {
        assert parts == [[]] + rest;
        assert parts[1..] == rest;
        assert Join(parts, sep) == [] + [sep] + Join(rest, sep);
        assert s == [sep] + s[1..];
      } else if |rest| == 1 {
        assert parts == [[s[0]] + rest[0]];
        assert s == [s[0]] + s[1..];
      } else {
        assert parts == [[s[0]] + rest[0]] + rest[1..];
        assert parts[1..] == rest[1..];
        assert Join(rest, sep) == rest[0] + [sep] + Join(rest[1..], sep);
        assert Join(parts, sep) == [s[0]] + rest[0] + [sep] + Join(rest[1..], sep);
        assert s == [s[0]] + s[1..];
      }
    }
  }

  /** Splitting a separator-free word followed by more text. */
  lemma {:induction false} SplitWord(w: string, t: string, sep: char)
    requires sep !in w
    ensures var r := Split(t, sep); Split(w + t, sep) == [w + r[0]] + r[1..]
  {
    var r := Split(t, sep);
    if w != [] {
      assert (w + t)[1..] == w[1..] + t;
      assert (w + t)[0] == w[0];
      SplitWord(w[1..], t, sep);
      assert [w[0]] + (w[1..] + r[0]) == w + r[0];
    } else {
      assert w + t == t;
      assert w + r[0] == r[0];
      assert r == [r[0]] + r[1..];
    }
  }

  /** Splitting a join of separator-free pieces gives the pieces back. */
  lemma {:induction false} SplitJoin(parts: seq<string>, sep: char)
    requires |parts| > 0
    requires forall i :: 0 <= i < |parts| ==> sep !in parts[i]
    ensures Split(Join(parts, sep), sep) == parts
  {
    if |parts| == 1 {
      SplitWord(parts[0], [], sep);
      assert parts[0] + [] == parts[0];
    } else {
      var t := Join(parts[1..], sep);
      SplitJoin(parts[1..], sep);
      SplitWord(parts[0], [sep] + t, sep);
      assert parts[0] + [sep] + t == parts[0] + ([sep] + t);
      assert ([sep] + t)[1..] == t;
      assert Split([sep] + t, sep) == [[]] + Split(t, sep);
      assert Split(Join(parts, sep), sep) == [parts[0] + []] + Split(t, sep);
      assert parts[0] + [] == parts[0];
      assert parts == [parts[0]] + parts[1..];
    }
  }

  // ---------------------------------------------------------------------
  // str.strip()

  /** ASCII whitespace as str.strip() removes it from a byte string:
      space, tab, line feed, carriage return, vertical tab, form feed. */
  predicate IsSpace(c: char) {
    c == ' ' || c == '\t' || c == '\n' || c == '\r' || c as int == 11 || c as int == 12
  }

  predicate AllSpace(s: string) {
    forall i :: 0 <= i < |s| ==> IsSpace(s[i])
  }

  /** True when `s` neither starts nor ends with whitespace. */
  predicate Trimmed(s: string) {
    s == [] || (!IsSpace(s[0]) && !IsSpace(s[|s| - 1]))
  }

  function TrimLeft(s: string): (r: string)
    ensures r == [] || !IsSpace(r[0])
  {
    if s != [] && IsSpace(s[0]) then TrimLeft(s[1..]) else s
  }

  function TrimRight(s: string): (r: string)
    ensures r == [] || (|s| > 0 && r[0] == s[0] && !IsSpace(r[|r| - 1]))
  {
    if s != [] && IsSpace(s[|s| - 1]) then TrimRight(s[..|s| - 1]) else s
  }

  /** `s` is `t` with whitespace added at either end. */
  ghost predicate Padded(s: string, t: string) {
    exists pre, post :: AllSpace(pre) && AllSpace(post) && s == pre + t + post
  }

  /** str.strip(): drops leading and trailing whitespace. */
  function Strip(s: string): (r: string)
    ensures Trimmed(r)
  {
    TrimRight(TrimLeft(s))
  }

  /** Strip removes whitespace at the ends and nothing else: the input is
      its result padded with whitespace.  With Trimmed, StripUnique shows
      that this determines the result. */
  lemma StripPads(s: string)
    ensures Padded(s, Strip(s))
  {
    var pre := TrimLeftPadding(s);
    var post := TrimRightPadding(TrimLeft(s));
    assert s == pre + Strip(s) + post;
  }

  /** The whitespace TrimLeft drops. */
  lemma {:induction false} TrimLeftPadding(s: string) returns (pre: string)
    ensures AllSpace(pre) && s == pre + TrimLeft(s)
  {
    if s != [] && IsSpace(s[0]) {
      var p := TrimLeftPadding(s[1..]);
      pre := [s[0]] + p;
      assert s == [s[0]] + s[1..];
    } else {
      pre := [];
    }
  }

  /** The whitespace TrimRight drops. */
  lemma {:induction false} TrimRightPadding(s: string) returns (post: string)
    ensures AllSpace(post) && s == TrimRight(s) + post
  {
    if s != [] && IsSpace(s[|s| - 1]) {
      var p := TrimRightPadding(s[..|s| - 1]);
      post := p + [s[|s| - 1]];
      assert s == s[..|s| - 1] + [s[|s| - 1]];
    } else {
      post := [];
    }
  }

  lemma {:induction false} TrimLeftSpaces(pre: string, t: string)
    requires AllSpace(pre)
    ensures TrimLeft(pre + t) == TrimLeft(t)
  {
    if pre != [] {
      assert (pre + t)[1..] == pre[1..] + t;
      TrimLeftSpaces(pre[1..], t);
    } else {
      assert pre + t == t;
    }
  }

  lemma {:induction false} TrimRightSpaces(t: string, post: string)
    requires AllSpace(post)
    ensures TrimRight(t + post) == TrimRight(t)
  {
    if post != [] {
      var s := t + post;
      assert s[..|s| - 1] == t + post[..|post| - 1];
      TrimRightSpaces(t, post[..|post| - 1]);
    } else {
      assert t + post == t;
    }
  }

  /** Strip is determined by the decomposition: whatever whitespace
      surrounds a trimmed middle part, the middle part is the result. */
  lemma StripCharacterization(pre: string, mid: string, post: string)
    requires AllSpace(pre) && AllSpace(post) && Trimmed(mid)
    ensures Strip(pre + mid + post) == mid
  {
    assert pre + mid + post == pre + (mid + post);
    TrimLeftSpaces(pre, mid + post);
    if mid == [] {
      assert mid + post == post;
      TrimLeftSpaces(post, []);
      assert post + [] == post;
    } else {
      assert TrimLeft(mid + post) == mid + post;
      TrimRightSpaces(mid, post);
    }
  }

  /** A trimmed string that `s` pads is the strip of `s`: there is only
      one way to strip. */
  lemma StripUnique(s: string, t: string)
    requires Padded(s, t) && Trimmed(t)
    ensures t == Strip(s)
  {
    var pre, post :| AllSpace(pre) && AllSpace(post) && s == pre + t + post;
    StripCharacterization(pre, t, post);
  }

  /** Stripping twice is stripping once. */
  lemma StripIdempotent(s: string)
    ensures Strip(Strip(s)) == Strip(s)
  {
    var r := Strip(s);
    assert [] + r + [] == r;
    StripCharacterization([], r, []);
  }

  // ---------------------------------------------------------------------
  // Reading a value back out of a formatted line

  /** The text between `open` and `close`, when `s` is framed by them. */
  function Between(s: string, open: string, close: string): (r: Option<string>)
    ensures r.Some? ==> s == open + r.value + close
  {
    if |open| + |close| <= |s| && s[..|open|] == open && s[|s| - |close|..] == close
    then Some(s[|open|..|s| - |close|])
    else None
  }

  /** Framing a value and reading it back gives the value. */
  lemma BetweenRoundTrip(open: string, mid: string, close: string)
    ensures Between(open + mid + close, open, close) == Some(mid)
  {
    var s := open + mid + close;
    assert s[..|open|] == open;
    assert s[|s| - |close|..] == close;
    assert s[|open|..|s| - |close|] == mid;
  }
}

=== FILE: toc.dfy ===
/** The table-of-contents page: a fixed head, one line of markup per page
    after the first (escaped label, markup by level), a line break written
    between a run of chapters and the entry that ends it, and a fixed foot. */
module Toc {
  import opened Results
  import opened Text
  import opened Escape
  import opened Pages
  import opened Books
  import opened Seqs

  const Break := "<br/>"

  /** The link to a page, with its escaped label, ending in a line break. */
  function Anchor(u: Uri): string {
    "<a href=\"" + FileName(u) + "\">" + GetLabel(u.labelText) + "</a><br/>"
  }

  /** The link to a page read back: the text between the opening tag with
      the page's file and the closing tags decodes to the page's label. */
  lemma AnchorReadBack(u: Uri)
    ensures var t := Between(Anchor(u), "<a href=\"" + FileName(u) + "\">", "</a><br/>");
      t.Some? && Unescape(t.value) == Some(u.labelText)
  {
    BetweenRoundTrip("<a href=\"" + FileName(u) + "\">", GetLabel(u.labelText), "</a><br/>");
    assert Anchor(u) == "<a href=\"" + FileName(u) + "\">" + GetLabel(u.labelText) + "</a><br/>";
    UnescapeGetLabel(u.labelText);
  }

  /** The entry for one page: emphasised at level 0, indented behind a
      colon at level 2 (chapters), strong otherwise (parts). */
  function EntryMarkup(u: Uri): string {
    if u.level == 0 then "<em>" + (Anchor(u) + "</em><br/>")
    else if u.level == 2 then "&#xA0;&#xA0;&#xA0;<strong>:</strong>&#xA0;" + Anchor(u)
    else "<strong>" + (Anchor(u) + "</strong>")
  }

  /** The level can be read back off the entry's second character: 'e' for
      level 0, '#' for level 2, 's' for every other level.  So no entry is
      a bare line break, and the breaks can be told apart from entries. */
  lemma EntryLevel(u: Uri)
    ensures var r := EntryMarkup(u);
      && |r| > 1
      && (r[1] == 'e' <==> u.level == 0)
      && (r[1] == '#' <==> u.level == 2)
      && (r[1] == 's' <==> u.level != 0 && u.level != 2)
      && r != Break
  {
    assert EntryMarkup(u)[1] != Break[1];
  }

  /** The entry carries the link with the escaped label intact. */
  lemma EntryHoldsAnchor(u: Uri)
    ensures exists pre, post :: EntryMarkup(u) == pre + Anchor(u) + post
  {
    if u.level == 0 {
      Wrapped(EntryMarkup(u), "<em>", Anchor(u), "</em><br/>");
    } else if u.level == 2 {
      Wrapped(EntryMarkup(u), "&#xA0;&#xA0;&#xA0;<strong>:</strong>&#xA0;", Anchor(u), "");
    } else {
      Wrapped(EntryMarkup(u), "<strong>", Anchor(u), "</strong>");
    }
  }

  // ---------------------------------------------------------------------
  // The listing, entry by entry

  /** A break precedes entry `k` when the entry before it is a chapter and
      entry `k` is not. */
  predicate BreakBefore(us: seq<Uri>, k: nat) {
    0 < k < |us| && us[k - 1].level == 2 && us[k].level != 2
  }

  /** What entry `k` contributes: the break, if due, then its markup. */
  function Piece(us: seq<Uri>, k: nat): seq<string>
    requires k < |us|
  {
    (if BreakBefore(us, k) then [Break] else []) + [EntryMarkup(us[k])]
  }

  /** The contributions of the first `n` entries, in order. */
  function ListingPrefix(us: seq<Uri>, n: nat): seq<string>
    requires n <= |us|
  {
    if n == 0 then [] else ListingPrefix(us, n - 1) + Piece(us, n - 1)
  }

  function Listing(us: seq<Uri>): seq<string> {
    ListingPrefix(us, |us|)
  }

  /** The entries of the listing: every line but the breaks. */
  function Entries(lines: seq<string>): (r: seq<string>)
    ensures |r| <= |lines|
  {
    if lines == [] then []
    else (if lines[0] == Break then [] else [lines[0]]) + Entries(lines[1..])
  }

  lemma {:induction false} EntriesAppend(a: seq<string>, b: seq<string>)
    ensures Entries(a + b) == Entries(a) + Entries(b)
  {
    if a == [] {
      assert a + b == b;
    } else {
      assert (a + b)[1..] == a[1..] + b;
      assert (a + b)[0] == a[0];
      EntriesAppend(a[1..], b);
    }
  }

  function EntryMarkups(us: seq<Uri>): seq<string> {
    seq(|us|, k requires 0 <= k < |us| => EntryMarkup(us[k]))
  }

  lemma PieceEntries(us: seq<Uri>, k: nat)
    requires k < |us|
    ensures Entries(Piece(us, k)) == [EntryMarkup(us[k])]
  {
    var e := [EntryMarkup(us[k])];
    EntryLevel(us[k]);
    assert e[1..] == [];
    if BreakBefore(us, k) {
      EntriesAppend([Break], e);
      assert [Break][1..] == [];
    } else {
      assert Piece(us, k) == e;
    }
  }

  lemma EntryMarkupsSnoc(us: seq<Uri>, n: nat)
    requires 0 < n <= |us|
    ensures EntryMarkups(us[..n]) == EntryMarkups(us[..n - 1]) + [EntryMarkup(us[n - 1])]
  {
    assert us[..n] == us[..n - 1] + [us[n - 1]];
  }

  /** Leaving out the breaks, the listing is one entry per page, in order. */
  lemma {:induction false} ListingEntries(us: seq<Uri>, n: nat)
    requires n <= |us|
    ensures Entries(ListingPrefix(us, n)) == EntryMarkups(us[..n])
  {
    if n > 0 {
      ListingEntries(us, n - 1);
      EntriesAppend(ListingPrefix(us, n - 1), Piece(us, n - 1));
      PieceEntries(us, n - 1);
      EntryMarkupsSnoc(us, n);
    } else {
      assert EntryMarkups(us[..0]) == [];
    }
  }

  /** The positions before which a break is written, among the first `n`. */
  function BreakSet(us: seq<Uri>, n: nat): set<nat> {
    set k: nat | k < n && BreakBefore(us, k)
  }

  /** The listing has one line per entry plus one per break position. */
  lemma {:induction false} ListingLength(us: seq<Uri>, n: nat)
    requires n <= |us|
    ensures |ListingPrefix(us, n)| == n + |BreakSet(us, n)|
  {
    if n == 0 {
      assert BreakSet(us, 0) == {};
    } else {
      ListingLength(us, n - 1);
      BreakSetStep(us, n);
      var piece := Piece(us, n - 1);
      assert ListingPrefix(us, n) == ListingPrefix(us, n - 1) + piece;
      assert |piece| == if BreakBefore(us, n - 1) then 2 else 1;
    }
  }

  lemma BreakSetStep(us: seq<Uri>, n: nat)
    requires 0 < n <= |us|
    ensures |BreakSet(us, n)| == |BreakSet(us, n - 1)| + if BreakBefore(us, n - 1) then 1 else 0
  {
    var before := BreakSet(us, n - 1);
    if BreakBefore(us, n - 1) {
      assert BreakSet(us, n) == before + {n - 1};
      assert n - 1 !in before;
    } else {
      assert BreakSet(us, n) == before;
    }
  }

  // ---------------------------------------------------------------------
  // The loop the program runs

  /** The pages listed: every page but the first. */
  function Listed(us: seq<Uri>): (r: seq<Uri>)
    ensures |r| == if us == [] then 0 else |us| - 1
    ensures forall k :: 0 <= k < |r| ==> r[k] == us[k + 1]
  {
    if us == [] then [] else us[1..]
  }

  /** One step of the level tracking: a break is due when the level
      changes and the last level was 2; the remembered level becomes the
      current one.  With the previous entry's level remembered, the break
      is due exactly when entry `i` is preceded by one. */
  method LevelStep(us: seq<Uri>, i: nat, lastLevel: Option<nat>) returns (gap: seq<string>, next: Option<nat>)
    requires i < |us|
    requires lastLevel == if i == 0 then None else Some(us[i - 1].level)
    ensures gap == if BreakBefore(us, i) then [Break] else []
    ensures next == Some(us[i].level)
  {
    var level := us[i].level;
    gap := [];
    next := lastLevel;
    if Some(level) != lastLevel {
      if lastLevel == Some(2) {
        gap := [Break];
      }
      next := Some(level);
    }
  }

  /** The listing loop: it remembers only the last level it saw, writing a
      break when the level changes away from 2.  That is the same as
      looking at the previous entry. */
  method TocListing(us: seq<Uri>) returns (out: seq<string>)
    ensures out == Listing(Listed(us))
  {
    var rest := Listed(us);
    out := [];
    var lastLevel: Option<nat> := None;
    var i := 0;
    while i < |rest|
      invariant 0 <= i <= |rest|
      invariant lastLevel == if i == 0 then None else Some(rest[i - 1].level)
      invariant out == ListingPrefix(rest, i)
    {
      var gap;
      gap, lastLevel := LevelStep(rest, i, lastLevel);
      out := out + (gap + [EntryMarkup(rest[i])]);
      i := i + 1;
    }
  }

  // ---------------------------------------------------------------------
  // The page

  /** The document type declaration of the page. */
  const Doctype := "<!DOCTYPE html PUBLIC \"-//W3C//DTD XHTML 1.1//EN\" \"http://www.w3.org/TR/xhtml11/DTD/xhtml11.dtd\">\n"

  /** The illustration floated beside the listing. */
  const Illustration := "<img src=\"img/voronoi.png\" alt=\"voronoi tessellations\" style=\"width:9em;height:69%;float:right;margin-bottom:2.5641%;margin-left:2.5641%;margin-right:0.0000%;margin-top:2.5641%;\"/>"

  /** The fixed opening of the page, before its title. */
  const PageOpen: seq<string> :=
    [ "<?xml version=\"1.0\" encoding=\"UTF-8\"?>\n",
      Doctype,
      "<html xmlns=\"http://www.w3.org/1999/xhtml\" xml:lang=\"en\"><head>" ]

  /** The stylesheet and content type, between the title and the
      identifier. */
  const HeadLinks: seq<string> :=
    [ "<link rel=\"stylesheet\" href=\"epub.css\" type=\"text/css\"/>",
      "<meta http-equiv=\"Content-Type\" content=\"application/xhtml+xml; charset=utf-8\"/>" ]

  /** The fixed start of the body, up to the listing. */
  const BodyOpen: seq<string> :=
    [ "</head><body><div class=\"body\" style=\"white-space:pre-wrap\">",
      "<h2 class=\"misc_title\">Table of Contents</h2>",
      "<p>&#xA0;</p>",
      "<p class=\"left_hang toc\">",
      Illustration ]

  /** The fixed head of the page, with the book's title and identifier. */
  function TocHead(b: Book): seq<string> {
    PageOpen
    + [ "<title>Table of Contents | " + b.title + "</title>" ]
    + HeadLinks
    + [ "<meta name=\"EPB-UUID\" content=\"" + b.identifier + "\"/>" ]
    + BodyOpen
  }

  /** The head carries the book's title and identifier, each between the
      fixed text around it. */
  lemma TocHeadReadBack(b: Book)
    ensures var r := TocHead(b);
      && |r| == 12
      && Between(r[3], "<title>Table of Contents | ", "</title>") == Some(b.title)
      && Between(r[6], "<meta name=\"EPB-UUID\" content=\"", "\"/>") == Some(b.identifier)
  {
    BetweenRoundTrip("<title>Table of Contents | ", b.title, "</title>");
    BetweenRoundTrip("<meta name=\"EPB-UUID\" content=\"", b.identifier, "\"/>");
  }

  const TocFoot: seq<string> := ["</p>", "</div></body></html>"]

  /** A page made of `head`, then a listing of `rest`, then `foot`: the
      lines between head and foot are the entries of `rest` in order, plus
      one break after each run of chapters. */
  predicate FramedPage(out: seq<string>, head: seq<string>, rest: seq<Uri>, foot: seq<string>) {
    && |out| == |head| + |rest| + |BreakSet(rest, |rest|)| + |foot|
    && out[..|head|] == head
    && out[|out| - |foot|..] == foot
    && Entries(out[|head|..|out| - |foot|]) == EntryMarkups(rest)
  }

  /** Writes a page: the given head, the listing loop, the given foot. */
  method WritePage(head: seq<string>, us: seq<Uri>, foot: seq<string>) returns (out: seq<string>)
    ensures FramedPage(out, head, Listed(us), foot)
  {
    var listing := TocListing(us);
    out := head + listing + foot;
    PageFrame(out, head, Listed(us), listing, foot);
  }

  /** The table-of-contents page of a book. */
  method TocPage(b: Book, us: seq<Uri>) returns (out: seq<string>)
    ensures FramedPage(out, TocHead(b), Listed(us), TocFoot)
  {
    out := WritePage(TocHead(b), us, TocFoot);
  }

  lemma PageFrame(out: seq<string>, head: seq<string>, rest: seq<Uri>, listing: seq<string>, foot: seq<string>)
    requires listing == Listing(rest)
    requires out == head + listing + foot
    ensures FramedPage(out, head, rest, foot)
  {
    Framed(out, head, listing, foot);
    ListingEntries(rest, |rest|);
    ListingLength(rest, |rest|);
    assert rest[..|rest|] == rest;
  }
}
